=== FILE: README.md ===
# QuickConvert core, modelled in Dafny

QuickConvert is a single-page browser tool. It converts images between WebP, JPEG and PNG, with optional resizing, cropping, drawing and batch renaming. It also converts HWP, DOCX and TXT documents to PDF, TXT or DOCX. All of its logic lives in `script.js`. Almost all of that file is DOM wiring and calls into foreign libraries. This project models the small sequential rules inside it and proves their properties.

The modules:

- `Wrappers`: `Option` and `Result`.
- `JsStrings`: the JavaScript string built-ins the script relies on, with their exact edge cases:
  - `split` with a one-character separator, and `split(c).pop()`;
  - `lastIndexOf`, which returns -1 when the character is absent;
  - the argument clamping of `substring`;
  - `replace` with a string pattern, which replaces the first occurrence only;
  - `trim` over the ECMAScript white-space set;
  - `toLowerCase` and `startsWith`/`endsWith`;
  - number-to-decimal conversion;
  - `parseInt` without a radix.
- `Naming`: `getOutputFilename` and the prefix rename of the image batch.
- `Platform`: files, encoded blobs and rasters, reduced to names, MIME types, sizes, dimensions and opaque content tokens.
- `Documents`:
  - document intake (`handleDocumentFiles`);
  - the target tabs (`updateFormatTabsVisibility`);
  - the click handler shared by all `.tab-btn` buttons, both as written and corrected (see Findings);
  - the route dispatch of the convert loop;
  - the TXT→DOCX line split.
- `Images`:
  - image intake (`handleFiles`);
  - the resize branch of `processImage`, with its target read by `parseInt(...) || null`;
  - the convert-all loop, both as written and corrected (see Findings).
- `Editor`:
  - zoom, in integer quarter steps from 1 (25%) to 20 (500%);
  - the edit session: open, mode switch, canvas initialisation, Clear, Save.

Foreign work is passed in as a function parameter:
- the image decoder;
- `canvas.toBlob`;
- the HWP/DOCX/PDF converter libraries, behind one `Converter`;
- what the Cropper widget returns.

## Model

| member | source | states |
|---|---|---|
| JsStrings.JoinSplit | script.js:788-789 | rejoining the pieces of `split` with the separator gives the text back |
| JsStrings.SplitJoin | script.js:788-789 | splitting separator-free pieces joined by the separator gives the pieces back |
| JsStrings.Split | script.js:788 | one more piece than there are separators, and no piece contains the separator; `JoinSplit` and `SplitJoin` make it the inverse of `join` |
| JsStrings.LastIndexOf | script.js:854 | -1 exactly when the character is absent; otherwise the character sits at the result and nowhere after it |
| JsStrings.LastSegmentAfterLastIndex | script.js:273 | `split(c).pop()` is the text after the last `c`, or the whole text when there is none |
| JsStrings.Substring | script.js:854 | both ends are clamped into the string and swapped when out of order: an in-range pair in either order gives the text between them, two ends at or before the start or at or after the end give the empty string, and the result is never longer than the string |
| JsStrings.Trim | script.js:265 | the trimmed prefix is empty exactly when the field is all white space; a non-empty one starts and ends with a non-space. It is the piece of the field right after the leading white-space run, and only white space follows it |
| JsStrings.TrimFramed | script.js:265 | any text that neither starts nor ends with white space is exactly what `trim` returns for it surrounded by white-space runs |
| JsStrings.Lower | script.js:389 | the lowered name has the same length, and each character is the original one with an ASCII capital turned into its small letter |
| JsStrings.ReplaceFirst | script.js:862 | the text comes back unchanged, or its length changes by the replacement's length minus the pattern's; `ReplaceFirstAt` and `ReplaceFirstNone` say which |
| JsStrings.ReplaceFirstAt | script.js:862 | only the first occurrence is replaced: the text before it and after it is kept |
| JsStrings.ReplaceFirstNone | script.js:862 | without an occurrence the text comes back unchanged |
| JsStrings.Decimal | script.js:274 | `${i + 1}` for a natural number, and the rounded percentage of the zoom label at script.js:92: a non-empty run of decimal digits with no leading zero; `DecimalValue` states which number it denotes |
| JsStrings.DecimalValue | script.js:274 | reading the printed digits back in base 10 gives the number printed |
| JsStrings.DecimalInjective | script.js:274 | two positions print as the same decimal text exactly when they are equal |
| JsStrings.ParseInt | script.js:264 | `parseInt` without a radix: an all-white-space field gives NaN, and a negative result needs a minus sign after the leading white space. The grammar lemmas `ParseIntDecimal`, `ParseIntHex` and `ParseIntNoDigits` give its value on every input |
| JsStrings.ParseDecimal | script.js:264 | `parseInt` reads a number's decimal text back as that number |
| JsStrings.ParseBlank | script.js:264 | `parseInt` of an all-white-space field is NaN |
| JsStrings.ParseIntDecimal | script.js:264 | after blank space and an optional `+` or `-`, the longest run of decimal digits is read, zero padding included, and whatever follows (a fraction, an exponent, text) is ignored; a lone `0` before `x` is the hexadecimal case instead |
| JsStrings.ParseIntHex | script.js:264 | after blank space, an optional sign and `0x` or `0X`, the longest run of hexadecimal digits in either case is read; `0x` with no such digit is NaN |
| JsStrings.ParseIntNoDigits | script.js:264 | blank space and an optional sign followed by no digit give NaN |
| JsStrings.ParseIntPadded | script.js:264 | the zero-padded field `0500` reads as 500 |
| Naming.SubtypeExtension | script.js:862 | a type outside the table succeeds exactly when it has a `/`. It then yields the piece after the first `/` with its first `jpeg` replaced by `jpg`, and never contains a `/` |
| Naming.Extension | script.js:855-862 | the six table MIME types map to their fixed extensions. Any other type succeeds exactly when it has a `/`. It then yields the piece after the first `/` with its first `jpeg` replaced by `jpg`, and never contains a `/` |
| Naming.BaseName | script.js:854 | everything before the last dot when that dot is not the first character; otherwise the whole name; never empty for a non-empty name |
| Naming.OutputFilename | script.js:853-864 | the derived name is the base, a dot and the extension; it throws exactly when the MIME type is outside the table and has no `/` |
| Naming.OutputExtensionReadBack | script.js:272-273 | `split('.').pop()` of a derived name is the last dot-piece of the extension, so the rename keeps the extension |
| Naming.OutputFilenameIdempotent | script.js:853-864 | deriving again from a derived name changes nothing, for a non-empty name and a dot-free extension |
| Naming.EmptyNameNotIdempotent | script.js:854 | the empty name is the exception: `""` gives `.webp`, and `.webp` gives `.webp.webp` |
| Naming.BatchName | script.js:265-275 | a blank trimmed prefix leaves the derived name. A prefix gives prefix, 1-based position, dot and extension. Naming fails exactly as `getOutputFilename` does |
| Naming.NumberedDistinct | script.js:274 | two prefixed names with the same prefix and extension differ whenever their numbers differ |
| Naming.PrefixedNamesDistinct | script.js:265-275 | with a prefix, two positions of one batch never get the same name, whatever the original names |
| Documents.HasExt | script.js:389-390 | a lowered name ends in a dot and `e` exactly when the name is longer than `e`, has a dot just before its last `|e|` characters, and those characters lower to `e` |
| Documents.DispatchExt | script.js:319 | the dispatched extension contains no dot and no ASCII capital; a name without a dot dispatches as the whole lowered name |
| Documents.SupportedIffDispatch | script.js:386-390 | intake accepts a name exactly when it has a dot and the text after its last dot lowers to `hwp`, `docx` or `txt`, so the intake test and the convert loop's extension agree in both directions |
| Documents.DispatchOfSuffix | script.js:319 | a name whose lowered form ends in a dot and a dot-free extension is dispatched by the loop as that extension, so intake's suffix test and the loop's `split('.').pop()` agree |
| Documents.SupportedDispatch | script.js:386-390 | every name intake accepts dispatches in the loop as one of `hwp`, `docx` or `txt` |
| Documents.AdmitStep | script.js:389-397 | one iteration appends the file under the next id exactly when it is supported and its exact name is new, and otherwise leaves the list alone. It raises an alert exactly when the file is unsupported. The id supply advances by the entries added |
| Documents.Admit | script.js:386-399 | existing entries are kept in order. The alerts are exactly the names of the unsupported files, in order. The id supply advances by the number of entries added |
| Documents.AdmitInvariants | script.js:388-397 | every entry intake adds is supported and has a fresh id from the supply. Distinct names stay distinct |
| Documents.AdmitNames | script.js:388-397 | the set of names afterwards is the names before plus the names of the supported files offered |
| Documents.AdmitOne | script.js:388-397 | a file is appended exactly when it is supported and its exact name is new; an alert is raised exactly when it is unsupported |
| Documents.Accepted | script.js:388-397 | the files intake keeps are supported files from the selection, none named like an existing entry, with no two sharing a name |
| Documents.AdmitAccepted | script.js:386-399 | intake appends exactly the accepted files in the order offered, the first file of a name winning, under consecutive ids from the supply, which advances by their number |
| Documents.RouteFor | script.js:321-330 | the dispatch is exactly the inverse of the six-route table: it returns a route iff that route has this extension and target |
| Documents.RoutedPairs | script.js:321-330 | the routed pairs are hwp/docx/txt→PDF, hwp/docx→TXT and txt→DOCX; nothing else is routed |
| Documents.UpdateTabs | script.js:444-471 | PDF is always visible. TXT is visible iff the first file dispatches as hwp/docx, DOCX iff it dispatches as txt. A hidden active tab passes the active mark to PDF; the active tab is always visible |
| Documents.TabsMatchRoutes | script.js:455-462 | for a supported first file, a tab is visible exactly when the loop has a route from that file to the tab's target |
| Documents.ReceiveDocuments | script.js:386-405 | an empty selection changes nothing. Otherwise the list and id supply are exactly intake's, the existing list stays a prefix and the results are left alone. The tabs are refreshed for the new list when it is non-empty and untouched when it is empty, with PDF visible. Exactly the unsupported files are rejected |
| Documents.ReceiveKeepsInvariants | script.js:386-399 | intake keeps a list of supported documents supported, and a list with distinct names distinct |
| Documents.ConvertOne | script.js:316-345 | an unrouted file yields nothing. A routed one yields exactly one outcome: a result named by `getOutputFilename` with the blob's size as new size and the file's size as original size, or an alert naming the file |
| Documents.ConvertOneOutcome | script.js:320-344 | which outcome is the converter's: when it succeeds, the one result carries its blob and there is no alert; when it fails, the one alert carries the file's name and the converter's message and there is no result |
| Documents.ConvertEach | script.js:315-346 | at most one outcome per file; every alert names a file of the list |
| Documents.ConvertEachAppend | script.js:315-346 | the loop over a concatenation is the concatenation of the loops: order is kept and items do not affect each other |
| Documents.FailureIsolated | script.js:342-345 | a file the libraries reject adds no result; the files before and after it convert as if it were absent |
| Documents.PdfRoutesEverything | script.js:321-324 | with PDF as target, every accepted file yields exactly one result or one alert |
| Documents.ConvertDocuments | script.js:306-351 | no files: nothing happens. No active tab: the list is cleared and the handler throws. Otherwise the results and alerts are exactly those of the loop over the list for the active tab's MIME type, and nothing throws |
| Documents.ActiveTabRoutesFirst | script.js:444-471 | after an intake the active tab always has a route for the first file |
| Documents.ClickTab | script.js:234-240 | a click on any `.tab-btn` keeps the visible tabs, sets `selectedFormat` to the button's value, and leaves the document bar's active mark on the clicked button: on the target for a document tab, on none of them for an image format tab |
| Documents.FormatClickBreaksConvert | script.js:234-240 | after an image format click on a page with documents, converting clears the results, raises no alert and throws; a later intake leaves the bar without an active tab |
| Documents.FormatClickScenario | script.js:234-240 | `notes.txt` listed with PDF active converts; after choosing PNG on the image page the same conversion throws |
| Documents.TargetClickSetsImageFormat | script.js:234-240 | a document target click sets the image batch's format to the PDF, text or DOCX type |
| Documents.ClickTabInBar | script.js:234-240 | corrected handler: an image format click sets only `selectedFormat`, a document target click only the document bar's active mark |
| Documents.FormatClickInBarKeepsConvert | script.js:234-240 | with the corrected handler, conversion after an image format click is exactly the loop for the target active before it, without throwing |
| Documents.TargetClickInBarKeepsFormat | script.js:234-240 | with the corrected handler, a document target click activates that target and keeps the image format |
| Documents.DocxParagraphs | script.js:788-796 | one paragraph per line, empty lines included. The paragraph count is the newline count plus one, no paragraph contains a newline, and joining them gives the text back |
| Documents.ParagraphsRoundTrip | script.js:788-796 | splitting newline-joined lines gives the lines back |
| Images.AddImages | script.js:368-380 | existing entries are kept. One entry is appended per file whose type starts with `image/`, and the id supply advances by that many |
| Images.AddImagesContents | script.js:370-379 | the appended entries are exactly the image files, in order, each with its decoded picture, no edit, no session and consecutive fresh ids |
| Images.AddImagesFreshIds | script.js:373-378 | intake keeps ids distinct and below the fresh-id supply |
| Images.ResizeTarget | script.js:264 | `parseInt(...) \|\| null`: no target exactly when `parseInt` gives NaN or zero; otherwise the parsed number, negative numbers included |
| Images.ResizeTargetReadsNumerals | script.js:264 | a positive numeral gives that width; `0` and an all-blank field give no target, as the fallback to `null` makes them |
| Images.Resize | script.js:580-586 | the drawn width never exceeds the source's. It shrinks exactly when a target below the source width was given, and then equals the target. Otherwise the size is unchanged |
| Images.CanvasDim | script.js:587-588 | setting a canvas dimension keeps a value in [0, 2^31) truncated, turns a value in (-1, 0) into 0, and replaces a value in [-2^31, -1] by the default |
| Images.CanvasSize | script.js:587-588 | a drawn width in [0, 2^31) becomes the canvas width, a negative one down to -2^31 gives the default 300; the height is truncated in [0, 2^31), becomes 0 in (-1, 0) and the default 150 in [-2^31, -1] |
| Images.CanvasWithinSource | script.js:580-588 | with no target or a positive one, the canvas is exactly as wide as the drawn picture, and no wider than the source |
| Images.NegativeTargetWidens | script.js:580-588 | the field `-5` is a target; a 200-pixel-wide source is drawn at width -5, and the canvas keeps its default width of 300 |
| Images.ResizeKeepsAspect | script.js:582-585 | the drawn height over width equals the source's |
| Images.ScenarioTarget | script.js:264 | the field `500` asks for width 500 |
| Images.ScenarioResize | script.js:580-588 | a 1000×500 source at width 500 is drawn 500×250 on a 500×250 canvas; a 1000×1 source at width 500 is drawn 500 wide and 0.5 high, so its canvas is `Canvas(500, 0)`, the empty canvas behind the null blob in Findings |
| Images.ScenarioName | script.js:853-864 | `photo.png` to JPEG without a prefix is offered as `photo.jpg` |
| Images.ConvertItem | script.js:573-600 | a converted row records the file's size as original size and the blob's size as new size |
| Images.ConvertItemOutcome | script.js:573-600 | a null blob stalls the item; a MIME type naming cannot handle skips it; otherwise the row carries the batch name of its position and a width no larger than its source's |
| Images.Collect | script.js:267-282 | the corrected loop yields at most one row per item; `CollectAppend`, `RowsInOrder` and `AllConvert` state which |
| Images.RunAsWritten | script.js:267-282 | the loop as written pushes at most one row per item; `AsWrittenStopsAtNullBlob` and `AsWrittenAgreesWithoutNullBlob` state which, and when it settles |
| Images.CollectAppend | script.js:267-282 | the corrected loop over a concatenation is the concatenation of the loops: input order is kept and a failure touches only its own item |
| Images.AsWrittenAgreesWithoutNullBlob | script.js:267-282 | when no item stalls, the loop as written settles with the same rows as the corrected one |
| Images.AsWrittenStopsAtNullBlob | script.js:267-282 | at the first null blob the loop as written stops for good, with only the earlier items' rows, and never settles |
| Images.IntendedSkipsNullBlob | script.js:276-280 | the corrected loop passes over a stalled item and still converts the later items |
| Images.ConvertAll | script.js:256-283 | without images nothing changes. Otherwise the old list is dropped and the result list is exactly the corrected loop's rows over the images, at most one per image. The zip button shows iff there is more than one row |
| Images.ConvertAllAsWritten | script.js:256-283 | without images nothing changes. Otherwise the result list is exactly the rows the loop as written pushed, and the handler settles exactly when that loop does. A settled run shows the zip button iff there is more than one row; a stalled run never reaches that line and leaves the button as it was |
| Images.AsWrittenSettledAgrees | script.js:256-283 | with no null blob, the handler as written settles and equals the corrected handler |
| Images.AllConvert | script.js:267-278 | when every item converts, row k is item k's result |
| Images.PositionInNameReadsBack | script.js:274 | a prefixed name gives back the 0-based position it was made for |
| Images.RowsInOrder | script.js:267-278 | rows that record their item's position carry strictly increasing positions within the batch |
| Images.PrefixedRowsInOrder | script.js:271-276 | with a prefix, the rows' names encode strictly increasing positions of the batch |
| Images.PrefixedRowsDistinct | script.js:271-290 | with a prefix no two rows share a name, so the zip archive loses no entry |
| Editor.AdjustZoom | script.js:91-93 | the zoom is the requested one when that is within [25%, 500%], else the bound it crossed |
| Editor.ZoomLabel | script.js:92 | the label is a run of decimal digits denoting 25 times the quarter-step zoom, that is the rounded percentage, followed by `%` |
| Editor.ZoomStaysInRange | script.js:88-93 | any sequence of presses keeps the zoom within [25%, 500%] |
| Editor.ZoomInOut | script.js:88-92 | in-then-out restores the zoom exactly below 500%, and out-then-in exactly above 25% |
| Editor.FitZoomLabel | script.js:530-531 | the fitted zoom's label computed as the zoom buttons do is `100%`, the text canvas initialisation writes |
| Editor.ZoomLabelInjective | script.js:93 | different zoom levels have different labels |
| Editor.FindIndex | script.js:127 | the first position with the id, or none exactly when no item has it |
| Editor.FindIndexDistinct | script.js:126-128 | with distinct ids, looking up an item's id finds that item |
| Editor.InitDraw | script.js:527-551 | with a session, zoom returns to fit and the canvas takes the session size and shows the session base for Clear, else the current picture. Without a session the canvas is untouched; a Clear then changes nothing, since its image never loads |
| Editor.SelectMode | script.js:506-525 | the mode becomes the chosen tab. Draw on an edited item re-initialises the canvas from its current picture. Crop, or no edited item, changes nothing else |
| Editor.DrawStroke | script.js:162-171 | a stroke changes the canvas's pixels only: its size and everything else in the editor stay as they were |
| Editor.Open | script.js:473-504 | the opened item's session base is its current picture, edit if any else original. No other item changes; the edited id and first tab are set |
| Editor.Clear | script.js:210-213 | without an edited item nothing changes; otherwise the canvas is re-initialised from the edited item's session base |
| Editor.Save | script.js:126-147 | unknown id: nothing changes. Otherwise only the edited item's edit is written: crop result, canvas copy or kept. A null edit leaves the modal open |
| Editor.ClearRestoresSessionBase | script.js:473-551 | after open and any actions, Clear shows the picture the item had at open, at fitted zoom |
| Editor.ClearForgetsCanvas | script.js:527-551 | Clear does not depend on the canvas or zoom before it |
| Editor.ClearDiscardsStroke | script.js:162-213 | Clear after a stroke equals Clear without it |
| Editor.SaveWritesOpenedItem | script.js:126-139 | with distinct ids, Save during a session writes no item other than the one opened |

## Left out

- DOM rendering is not modelled, because the model tracks only the state the rules read. This covers list and result rendering, `formatBytes`, the loader, `scrollIntoView`, the theme toggle and its `localStorage` flag, the feature tabs, the quality label and the compare slider.
- The image-format tab handler (script.js:234-240) is modelled by `Documents.ClickTab`, because it is bound to every `.tab-btn`, the document target tabs included. Its `selectedFormat` reaches the image batch as `Images.Options.format`, a parameter; the image bar's own active mark is DOM rendering and is not modelled.
- `index.html` is not part of this model. The modal's first tab and the document bar's initially active tab come from it, so `Editor.Open` takes the first tab as a parameter and `Documents.Tabs` starts from any state.
- The HWP, DOCX and PDF converters (hwp.js, mammoth, html2canvas, jsPDF, the docx packer), JSZip and Cropper are foreign libraries. They are parameters, and only the dispatch to them and the TXT line split are modelled.
- Object URLs, `FileReader` and the Promise plumbing are not modelled. Every load is taken to finish before the next user action, and a second click during a running batch is not modelled.
- Decoding failures are not modelled. The image loads have no error handler, so a picture that fails to decode would stall like the null blob in Findings.
- `applyZoom`, the brush width, `getMousePos` and `fitScale` are left out because they are floating-point display arithmetic with no effect on the modelled state.
- `Images.Resize`: the height is an exact rational, not an IEEE double. "Never wider than the source" holds for the drawn width, not for the canvas. A negative field such as `-5` passes `parseInt(...) || null` and the `targetWidth < width` test. The canvas then rejects the negative size and keeps its 300×150 default, as `Images.NegativeTargetWidens` exhibits. The canvas size is modelled by `Images.CanvasDim`, following WebIDL's `unsigned long` conversion and the HTML standard's reflection rule; `NaN` and infinite values cannot arise here and are not modelled. The drawn height is the exact product, so IEEE rounding is not modelled: a 49×49 source at width 1 computes `49 * (1 / 49)`, which is 0.9999999999999999 in doubles, so the browser truncates the canvas height to 0 and hits the null-blob stall in Findings, while the model gives `Canvas(1, 1)`.
- `JsStrings.Lower`: folds ASCII letters only, because full Unicode case mapping is outside the model. The three suffixes compared are ASCII.
- `JsStrings.ParseDecimal`: `parseInt` is exact on unbounded integers, so it does not model the rounding of digit runs beyond 2^53.
- `Images.AddImages`: ids come from a counter instead of `Date.now() + Math.random()`, because a clock and randomness are outside the model. Their distinctness is therefore proved, not assumed. `Documents.Admit` does the same.
- `Editor.SelectMode`: building the Cropper widget on the Crop tab is foreign. What `getCroppedCanvas()` returns is a parameter of `Editor.Save`.

## Findings

| source | as written | input that shows it | evidently intended | confidence | as-written member | corrected member |
|---|---|---|---|---|---|---|
| script.js:590-596 | The `toBlob` callback calls `URL.createObjectURL(blob)` and reads `blob.size` before resolving. When the platform hands `null`, the callback throws, the promise never settles, and the `await` in the convert-all loop waits forever. No later image is converted, the zip button is never updated and the loader stays up. | A 1000×1 image converted at width 500: the height becomes 0.5, the canvas is 0 pixels high (`Images.ScenarioResize`), and `toBlob` hands `null`. | An item whose encoding yields nothing is skipped like one whose naming throws, and the loop goes on. | medium, not executed | Images.AsWrittenStopsAtNullBlob | Images.IntendedSkipsNullBlob |
| script.js:234-240 | The click handler for the image format tabs is bound to every `.tab-btn`. It removes `active` from the document target tabs too, and sets `selectedFormat` from document tabs as well. | Add a TXT file, choose PNG on the image page, then press the document convert button. `#file-format-tabs .tab-btn.active` is null at script.js:313, the handler throws after clearing the result list, and nothing converts until a document tab is clicked again. A later intake does not repair it, since `updateFormatTabsVisibility` only acts on an existing active tab. Clicking a document tab in turn makes the image batch ask `toBlob` for `application/pdf` and name its files `.pdf`. | Each bar keeps its own active mark and value: an image format click sets only `selectedFormat`, a document tab click only the document target. `FormatClickBreaksConvert` exhibits the throw; `FormatClickInBarKeepsConvert` proves conversion unaffected under the corrected handler. | medium, not executed | Documents.ClickTab | Documents.ClickTabInBar |

=== FILE: documents.dfy ===
/**
 * The document converter: intake (`handleDocumentFiles`, script.js:386-405),
 * the target tabs (`updateFormatTabsVisibility`, script.js:444-471), the
 * `.tab-btn` click handler (script.js:234-240), the per-file route dispatch
 * of the convert handler (script.js:306-351) and the one piece of a route
 * the script computes itself, the TXT to DOCX line split (script.js:788-796).
 * The renderers and encoders behind the routes are a parameter.
 */
module Documents {
  import opened Wrappers
  import opened JsStrings
  import opened Naming
  import opened Platform

  /** An entry of `uploadedFiles`; the id is a fresh value the script never reads back. */
  datatype DocItem = DocItem(file: File, id: nat)

  function Names(items: seq<DocItem>): (r: seq<string>)
    ensures |r| == |items|
    ensures forall k :: 0 <= k < |items| ==> r[k] == items[k].file.name
  {
    seq(|items|, k requires 0 <= k < |items| => items[k].file.name)
  }

  /** No two entries share a file name. */
  predicate NamesDistinct(items: seq<DocItem>) {
    forall i, j :: 0 <= i < j < |items| ==> items[i].file.name != items[j].file.name
  }

  /** Every listed document from position `from` on is supported and numbered in `[lo, hi)`. */
  predicate AddedSupported(items: seq<DocItem>, from: nat, lo: nat, hi: nat) {
    forall k :: from <= k < |items| ==> Supported(items[k].file.name) && lo <= items[k].id < hi
  }

  /** Every listed document is supported. */
  predicate AllSupported(items: seq<DocItem>) {
    forall k :: 0 <= k < |items| ==> Supported(items[k].file.name)
  }

  /** The intake test: the lower-cased name ends in `.hwp`, `.docx` or `.txt`. */
  predicate Supported(name: string) {
    HasExt(name, "hwp") || HasExt(name, "docx") || HasExt(name, "txt")
  }

  /** `name.toLowerCase().endsWith('.' + e)`. */
  predicate HasExt(name: string, e: string)
    ensures HasExt(name, e) <==>
              |e| < |name| && name[|name| - |e| - 1] == '.' && Lower(name[|name| - |e|..]) == e
  {
    var k := |name| - |e| - 1;
    assert |e| < |name| ==> Lower(name)[k] == LowerChar(name[k]);
    assert |e| < |name| ==> Lower(name)[k + 1..] == Lower(name[k + 1..]);
    EndsWith(Lower(name), "." + e)
  }

  /** `name.split('.').pop().toLowerCase()`: the extension the convert loop and the tabs dispatch on. */
  function DispatchExt(name: string): (r: string)
    ensures '.' !in r
    ensures forall i :: 0 <= i < |r| ==> !('A' <= r[i] <= 'Z')
    ensures '.' !in name ==> r == Lower(name)
  {
    var seg := LastSegment(name, '.');
    LowerKeepsNonLetter(seg, '.');
    if '.' in name then Lower(seg)
    else LastSegmentNoSeparator(name, '.'); Lower(seg)
  }

  /** A name whose lowered form ends in a dot and a dot-free `e` dispatches as `e`: intake's suffix test and the loop's extension agree. */
  lemma DispatchOfSuffix(name: string, e: string)
    requires '.' !in e
    requires HasExt(name, e)
    ensures DispatchExt(name) == e
  {
    assert "." + e == ['.'] + e;
    LowerLastSegment(name, '.', e);
  }

  /**
   * Intake's suffix test and the convert loop's dispatch agree exactly: a
   * name is accepted if and only if it has a dot and the text after its last
   * dot lowers to one of the three extensions.
   */
  lemma SupportedIffDispatch(name: string)
    ensures Supported(name) <==> '.' in name && DispatchExt(name) in {"hwp", "docx", "txt"}
  {
    if Supported(name) {
      SupportedDispatch(name);
    }
    if '.' in name && DispatchExt(name) in {"hwp", "docx", "txt"} {
      var k := LastIndexOf(name, '.');
      LastSegmentAfterLastIndex(name, '.');
      var e := DispatchExt(name);
      assert Lower(name[k + 1..]) == e;
      assert |name| - |e| - 1 == k;
      assert HasExt(name, e);
    }
  }

  /** Every name intake accepts dispatches as one of the three extensions. */
  lemma SupportedDispatch(name: string)
    requires Supported(name)
    ensures DispatchExt(name) in {"hwp", "docx", "txt"}
  {
    if HasExt(name, "hwp") {
      DispatchOfSuffix(name, "hwp");
    } else if HasExt(name, "docx") {
      DispatchOfSuffix(name, "docx");
    } else {
      DispatchOfSuffix(name, "txt");
    }
  }

  // ---------------------------------------------------------------------------
  // Intake
  // ---------------------------------------------------------------------------

  /** The list after an intake, the names an alert was raised for, and the next fresh id. */
  datatype Intake = Intake(items: seq<DocItem>, rejected: seq<string>, nextId: nat)

  /** Reference definition of the alerts: the names of the unsupported files, in order. */
  function UnsupportedNames(files: seq<File>): seq<string> {
    if files == [] then []
    else (if Supported(files[0].name) then [] else [files[0].name]) + UnsupportedNames(files[1..])
  }

  /**
   * One iteration of `handleDocumentFiles`: an unsupported file is rejected
   * with an alert, a file whose exact name is already listed is passed over,
   * any other file is appended under the next id.
   */
  function AdmitStep(items: seq<DocItem>, f: File, nextId: nat): (r: Intake)
    ensures r.items == items || r.items == items + [DocItem(f, nextId)]
    ensures r.items == items + [DocItem(f, nextId)] <==> Supported(f.name) && f.name !in Names(items)
    ensures r.rejected == (if Supported(f.name) then [] else [f.name])
    ensures r.nextId - nextId == |r.items| - |items|
  {
    if !Supported(f.name) then Intake(items, [f.name], nextId)
    else if f.name in Names(items) then Intake(items, [], nextId)
    else Intake(items + [DocItem(f, nextId)], [], nextId + 1)
  }

  /** The loop of `handleDocumentFiles` over the selected files, in order. */
  function Admit(items: seq<DocItem>, files: seq<File>, nextId: nat): (r: Intake)
    ensures |r.items| >= |items| && r.items[..|items|] == items
    ensures r.rejected == UnsupportedNames(files)
    ensures r.nextId - nextId == |r.items| - |items|
    decreases |files|
  {
    if files == [] then Intake(items, [], nextId)
    else
      var step := AdmitStep(items, files[0], nextId);
      var rest := Admit(step.items, files[1..], step.nextId);
      assert rest.items[..|items|] == step.items[..|items|];
      Intake(rest.items, step.rejected + rest.rejected, rest.nextId)
  }

  /**
   * What intake keeps invariant: every entry added is supported and carries
   * a fresh id, and distinct names stay distinct.
   */
  lemma {:induction false} AdmitInvariants(items: seq<DocItem>, files: seq<File>, nextId: nat)
    ensures AddedSupported(Admit(items, files, nextId).items, |items|, nextId, Admit(items, files, nextId).nextId)
    ensures NamesDistinct(items) ==> NamesDistinct(Admit(items, files, nextId).items)
    decreases |files|
  {
    if files != [] {
      var step := AdmitStep(items, files[0], nextId);
      AdmitInvariants(step.items, files[1..], step.nextId);
      AdmitStepFacts(items, files[0], nextId);
      var r := Admit(items, files, nextId);
      assert r.items == Admit(step.items, files[1..], step.nextId).items;
      forall k | |items| <= k < |r.items|
        ensures Supported(r.items[k].file.name) && nextId <= r.items[k].id < r.nextId
      {
        if k < |step.items| {
          assert r.items[k] == r.items[..|step.items|][k] == step.items[k];
        }
      }
    }
  }

  /** The bookkeeping of one step of intake, split out to keep the proofs about the loop small. */
  lemma AdmitStepFacts(items: seq<DocItem>, f: File, nextId: nat)
    ensures var after := AdmitStep(items, f, nextId).items;
            (set n | n in Names(after)) == (set n | n in Names(items)) + (if Supported(f.name) then {f.name} else {})
    ensures NamesDistinct(items) ==> NamesDistinct(AdmitStep(items, f, nextId).items)
  {
    var after := AdmitStep(items, f, nextId).items;
    if after != items {
      assert Names(after) == Names(items) + [f.name];
    }
  }

  /** The supported files' names split into the first file's and the rest's. */
  lemma SupportedNamesCons(files: seq<File>)
    requires files != []
    ensures (set g | g in files && Supported(g.name) :: g.name) ==
            (if Supported(files[0].name) then {files[0].name} else {}) + (set g | g in files[1..] && Supported(g.name) :: g.name)
  {
    assert files == [files[0]] + files[1..];
  }

  /**
   * The names on the list after an intake are the names before plus the
   * names of the supported files offered: nothing accepted is lost to
   * de-duplication except a name already present.
   */
  lemma {:induction false} AdmitNames(items: seq<DocItem>, files: seq<File>, nextId: nat)
    ensures (set n | n in Names(Admit(items, files, nextId).items)) ==
              (set n | n in Names(items)) + (set f | f in files && Supported(f.name) :: f.name)
    decreases |files|
  {
    if files != [] {
      var step := AdmitStep(items, files[0], nextId);
      AdmitStepFacts(items, files[0], nextId);
      AdmitNames(step.items, files[1..], step.nextId);
      SupportedNamesCons(files);
    }
  }

  /** One file is appended exactly when it is supported and its exact name is new; otherwise the list is unchanged. */
  lemma AdmitOne(items: seq<DocItem>, f: File, nextId: nat)
    ensures Supported(f.name) && f.name !in Names(items) ==>
              Admit(items, [f], nextId).items == items + [DocItem(f, nextId)]
    ensures !(Supported(f.name) && f.name !in Names(items)) ==>
              Admit(items, [f], nextId).items == items
    ensures Admit(items, [f], nextId).rejected == (if Supported(f.name) then [] else [f.name])
  {
    assert [f][1..] == [];
  }

  /**
   * Reference definition of what intake appends: the supported files in the
   * order offered, each kept only when neither the list nor an earlier
   * accepted file already has its exact name, so the first file with a
   * given name wins.
   */
  function Accepted(names: seq<string>, files: seq<File>): (r: seq<File>)
    ensures forall k :: 0 <= k < |r| ==> r[k] in files && Supported(r[k].name) && r[k].name !in names
    ensures forall i, j :: 0 <= i < j < |r| ==> r[i].name != r[j].name
    decreases |files|
  {
    if files == [] then []
    else if Supported(files[0].name) && files[0].name !in names then
      [files[0]] + Accepted(names + [files[0].name], files[1..])
    else Accepted(names, files[1..])
  }

  /** List entries for `fs`, numbered consecutively from `n`. */
  function Entries(fs: seq<File>, n: nat): seq<DocItem> {
    seq(|fs|, k requires 0 <= k < |fs| => DocItem(fs[k], n + k))
  }

  lemma EntriesCons(f: File, fs: seq<File>, n: nat)
    ensures Entries([f] + fs, n) == [DocItem(f, n)] + Entries(fs, n + 1)
  {
  }

  /**
   * Intake appends exactly the accepted files, in the order offered, under
   * consecutive ids from `nextId`; nothing already listed moves.
   */
  lemma {:induction false} AdmitAccepted(items: seq<DocItem>, files: seq<File>, nextId: nat)
    ensures Admit(items, files, nextId).items == items + Entries(Accepted(Names(items), files), nextId)
    ensures Admit(items, files, nextId).nextId == nextId + |Accepted(Names(items), files)|
    decreases |files|
  {
    if files != [] {
      var step := AdmitStep(items, files[0], nextId);
      AdmitAccepted(step.items, files[1..], step.nextId);
      AcceptedStep(items, files, nextId);
    }
  }

  /** One step of intake moves the first file from the accepted remainder onto the list, or drops it. */
  lemma AcceptedStep(items: seq<DocItem>, files: seq<File>, nextId: nat)
    requires files != []
    ensures var step := AdmitStep(items, files[0], nextId);
            && items + Entries(Accepted(Names(items), files), nextId)
               == step.items + Entries(Accepted(Names(step.items), files[1..]), step.nextId)
            && nextId + |Accepted(Names(items), files)| == step.nextId + |Accepted(Names(step.items), files[1..])|
  {
    if Supported(files[0].name) && files[0].name !in Names(items) {
      AcceptedTaken(items, files, nextId);
    }
  }

  /** The taken case of `AcceptedStep`: the first file becomes the next entry. */
  lemma AcceptedTaken(items: seq<DocItem>, files: seq<File>, nextId: nat)
    requires files != [] && Supported(files[0].name) && files[0].name !in Names(items)
    ensures var entry := DocItem(files[0], nextId);
            && items + Entries(Accepted(Names(items), files), nextId)
               == (items + [entry]) + Entries(Accepted(Names(items + [entry]), files[1..]), nextId + 1)
            && |Accepted(Names(items), files)| == 1 + |Accepted(Names(items + [entry]), files[1..])|
  {
    var f := files[0];
    var entry := DocItem(f, nextId);
    assert Names(items + [entry]) == Names(items) + [f.name];
    var rest := Accepted(Names(items) + [f.name], files[1..]);
    assert Accepted(Names(items), files) == [f] + rest;
    EntriesCons(f, rest, nextId);
    Regroup(items, [entry], Entries(rest, nextId + 1));
  }

  // ---------------------------------------------------------------------------
  // Targets, routes and tabs
  // ---------------------------------------------------------------------------

  /** The three tabs of the document target bar. */
  datatype Target = ToPdf | ToText | ToDocx {
    /** The tab's `data-value`. */
    function Mime(): string {
      match this
      case ToPdf => PdfMime
      case ToText => TextMime
      case ToDocx => DocxMime
    }
  }

  /** The six conversions, each delegated to external libraries. */
  datatype Route = HwpToPdf | DocxToPdf | TxtToPdf | HwpToText | DocxToText | TxtToDocx {
    function SourceExt(): string {
      match this
      case HwpToPdf => "hwp"
      case DocxToPdf => "docx"
      case TxtToPdf => "txt"
      case HwpToText => "hwp"
      case DocxToText => "docx"
      case TxtToDocx => "txt"
    }

    function Target(): Target {
      match this
      case HwpToPdf => ToPdf
      case DocxToPdf => ToPdf
      case TxtToPdf => ToPdf
      case HwpToText => ToText
      case DocxToText => ToText
      case TxtToDocx => ToDocx
    }
  }

  /**
   * The dispatch of the convert loop: the route for an extension and a target
   * MIME type, if any. It is exactly the inverse of the route table.
   */
  function RouteFor(ext: string, targetMime: string): (r: Option<Route>)
    ensures r.Some? ==> r.value.SourceExt() == ext && r.value.Target().Mime() == targetMime
    ensures forall route: Route :: route.SourceExt() == ext && route.Target().Mime() == targetMime ==> r == Some(route)
  {
    if targetMime == PdfMime then
      if ext == "hwp" then Some(HwpToPdf)
      else if ext == "docx" then Some(DocxToPdf)
      else if ext == "txt" then Some(TxtToPdf)
      else None
    else if targetMime == TextMime then
      if ext == "hwp" then Some(HwpToText)
      else if ext == "docx" then Some(DocxToText)
      else None
    else if targetMime == DocxMime then
      if ext == "txt" then Some(TxtToDocx)
      else None
    else None
  }

  /** The six routed pairs, listed: every other pair of extension and target yields nothing. */
  lemma RoutedPairs(ext: string, targetMime: string)
    ensures RouteFor(ext, targetMime).Some? <==>
              || (ext in {"hwp", "docx", "txt"} && targetMime == PdfMime)
              || (ext in {"hwp", "docx"} && targetMime == TextMime)
              || (ext == "txt" && targetMime == DocxMime)
  {
  }

  /** Which tabs are shown and which one is active. */
  datatype Tabs = Tabs(visible: set<Target>, active: Option<Target>)

  /**
   * `updateFormatTabsVisibility(files)`: PDF always, TXT for a first file
   * dispatching as `hwp` or `docx`, DOCX for one dispatching as `txt`; an
   * active tab that ended up hidden hands the active mark to PDF.
   */
  function UpdateTabs(tabs: Tabs, items: seq<DocItem>): (r: Tabs)
    ensures ToPdf in r.visible
    ensures ToText in r.visible <==> |items| > 0 && DispatchExt(items[0].file.name) in {"hwp", "docx"}
    ensures ToDocx in r.visible <==> |items| > 0 && DispatchExt(items[0].file.name) == "txt"
    ensures tabs.active.Some? && tabs.active.value !in r.visible ==> r.active == Some(ToPdf)
    ensures tabs.active.Some? && tabs.active.value in r.visible ==> r.active == tabs.active
    ensures tabs.active.None? ==> r.active.None?
    ensures r.active.Some? ==> r.active.value in r.visible
  {
    var ext := if |items| > 0 then DispatchExt(items[0].file.name) else "";
    var extra: set<Target> :=
      if |items| == 0 then {}
      else if ext == "hwp" || ext == "docx" then {ToText}
      else if ext == "txt" then {ToDocx}
      else {};
    var visible := {ToPdf} + extra;
    var active := if tabs.active.Some? && tabs.active.value !in visible then Some(ToPdf) else tabs.active;
    Tabs(visible, active)
  }

  /**
   * For an accepted first file the visible tabs are exactly the targets the
   * convert loop has a route for.
   */
  lemma TabsMatchRoutes(tabs: Tabs, items: seq<DocItem>, t: Target)
    requires |items| > 0 && Supported(items[0].file.name)
    ensures t in UpdateTabs(tabs, items).visible <==> RouteFor(DispatchExt(items[0].file.name), t.Mime()).Some?
  {
    var ext := DispatchExt(items[0].file.name);
    SupportedDispatch(items[0].file.name);
    var visible := UpdateTabs(tabs, items).visible;
    match t
    case ToPdf =>
      assert RouteFor(ext, PdfMime).Some?;
    case ToText =>
      RoutedPairs(ext, TextMime);
    case ToDocx =>
      RoutedPairs(ext, DocxMime);
  }

  // ---------------------------------------------------------------------------
  // The desk: intake plus tabs, and the convert handler
  // ---------------------------------------------------------------------------

  /** A row of the document result list. */
  datatype DocResult = DocResult(name: string, originalSize: nat, newSize: nat, blob: Blob)

  /** An `alert` raised while converting: the failing file's name and the error message. */
  datatype Alert = Alert(fileName: string, message: string)

  /** The document page's state: `uploadedFiles`, the tab bar, a fresh-id supply and the result rows. */
  datatype Desk = Desk(items: seq<DocItem>, tabs: Tabs, nextId: nat, results: seq<DocResult>)

  /** A desk after an intake, with the names the unsupported-type alert was raised for. */
  datatype Received = Received(desk: Desk, rejected: seq<string>)

  /** `handleDocumentFiles`: nothing for an empty selection; otherwise admit, then refresh the tabs if the list is non-empty. */
  function ReceiveDocuments(d: Desk, files: seq<File>): (r: Received)
    ensures |r.desk.items| >= |d.items| && r.desk.items[..|d.items|] == d.items
    ensures r.desk.results == d.results
    ensures r.rejected == UnsupportedNames(files)
    ensures files == [] ==> r == Received(d, [])
    ensures files != [] ==> r.desk.items == Admit(d.items, files, d.nextId).items
                              && r.desk.nextId == Admit(d.items, files, d.nextId).nextId
    ensures files != [] && |r.desk.items| > 0 ==> r.desk.tabs == UpdateTabs(d.tabs, r.desk.items)
    ensures |r.desk.items| == 0 ==> r.desk.tabs == d.tabs
    ensures files != [] && |r.desk.items| > 0 ==> ToPdf in r.desk.tabs.visible
  {
    if files == [] then Received(d, [])
    else
      var a := Admit(d.items, files, d.nextId);
      var tabs := if |a.items| > 0 then UpdateTabs(d.tabs, a.items) else d.tabs;
      Received(Desk(a.items, tabs, a.nextId, d.results), a.rejected)
  }

  /** Intake keeps every listed document supported and the names distinct. */
  lemma ReceiveKeepsInvariants(d: Desk, files: seq<File>)
    ensures AllSupported(d.items) ==> AllSupported(ReceiveDocuments(d, files).desk.items)
    ensures NamesDistinct(d.items) ==> NamesDistinct(ReceiveDocuments(d, files).desk.items)
  {
    if files != [] {
      var r := ReceiveDocuments(d, files);
      AdmitInvariants(d.items, files, d.nextId);
      if AllSupported(d.items) {
        forall k | 0 <= k < |r.desk.items|
          ensures Supported(r.desk.items[k].file.name)
        {
          if k < |d.items| {
            assert r.desk.items[k] == r.desk.items[..|d.items|][k];
          }
        }
      }
    }
  }

  /** The external converters: what the libraries behind a route return for a file, or the message they reject with. */
  type Converter = (Route, File) -> Result<Blob, string>

  /** The results and alerts of a run of the convert loop. */
  datatype DocRun = DocRun(results: seq<DocResult>, alerts: seq<Alert>)

  function Concat(a: DocRun, b: DocRun): DocRun {
    DocRun(a.results + b.results, a.alerts + b.alerts)
  }

  /**
   * One iteration of the convert loop: no route means nothing; a route the
   * libraries complete yields one result named by `getOutputFilename`; one
   * they reject with yields one alert naming the file.
   */
  function ConvertOne(item: DocItem, targetMime: string, convert: Converter): (r: DocRun)
    ensures |r.results| + |r.alerts| <= 1
    ensures RouteFor(DispatchExt(item.file.name), targetMime).None? ==> r == DocRun([], [])
    ensures RouteFor(DispatchExt(item.file.name), targetMime).Some? ==> |r.results| + |r.alerts| == 1
    ensures forall k :: 0 <= k < |r.results| ==>
              OutputFilename(item.file.name, targetMime) == Success(r.results[k].name)
              && r.results[k].newSize == r.results[k].blob.size
              && r.results[k].originalSize == item.file.size
    ensures forall k :: 0 <= k < |r.alerts| ==> r.alerts[k].fileName == item.file.name
  {
    match RouteFor(DispatchExt(item.file.name), targetMime)
    case None => DocRun([], [])
    case Some(route) =>
      match convert(route, item.file)
      case Failure(message) => DocRun([], [Alert(item.file.name, message)])
      case Success(blob) =>
        assert KnownExtension(targetMime).Some?;
        var name := OutputFilename(item.file.name, targetMime).value;
        DocRun([DocResult(name, item.file.size, blob.size, blob)], [])
  }

  /**
   * Which outcome a routed file has is the converter's: its blob becomes the
   * one result, its message the one alert.
   */
  lemma ConvertOneOutcome(item: DocItem, targetMime: string, convert: Converter, route: Route)
    requires RouteFor(DispatchExt(item.file.name), targetMime) == Some(route)
    ensures convert(route, item.file).Success? ==>
              && ConvertOne(item, targetMime, convert).alerts == []
              && |ConvertOne(item, targetMime, convert).results| == 1
              && ConvertOne(item, targetMime, convert).results[0].blob == convert(route, item.file).value
    ensures convert(route, item.file).Failure? ==>
              ConvertOne(item, targetMime, convert) == DocRun([], [Alert(item.file.name, convert(route, item.file).error)])
  {
  }

  /** The whole convert loop, item by item in order; each item's error is caught where it happens. */
  function ConvertEach(items: seq<DocItem>, targetMime: string, convert: Converter): (r: DocRun)
    ensures |r.results| + |r.alerts| <= |items|
    ensures forall k :: 0 <= k < |r.alerts| ==> r.alerts[k].fileName in Names(items)
    ensures forall k :: 0 <= k < |r.results| ==> r.results[k].newSize == r.results[k].blob.size
  {
    if items == [] then DocRun([], [])
    else
      var first := ConvertOne(items[0], targetMime, convert);
      var rest := ConvertEach(items[1..], targetMime, convert);
      assert forall n :: n in Names(items[1..]) ==> n in Names(items);
      Concat(first, rest)
  }

  /**
   * A failing item does not disturb its neighbours: the run over a
   * concatenation is the concatenation of the runs.
   */
  lemma {:induction false} ConvertEachAppend(a: seq<DocItem>, b: seq<DocItem>, targetMime: string, convert: Converter)
    ensures ConvertEach(a + b, targetMime, convert) ==
              Concat(ConvertEach(a, targetMime, convert), ConvertEach(b, targetMime, convert))
    decreases |a|
  {
    if a == [] {
      assert a + b == b;
    } else {
      ConvertEachUnfold(a, b, targetMime, convert);
      ConvertEachAppend(a[1..], b, targetMime, convert);
      ConcatAssociative(ConvertOne(a[0], targetMime, convert), ConvertEach(a[1..], targetMime, convert),
                        ConvertEach(b, targetMime, convert));
    }
  }

  lemma ConvertEachUnfold(a: seq<DocItem>, b: seq<DocItem>, targetMime: string, convert: Converter)
    requires a != []
    ensures ConvertEach(a + b, targetMime, convert) ==
              Concat(ConvertOne(a[0], targetMime, convert), ConvertEach(a[1..] + b, targetMime, convert))
  {
    assert (a + b)[0] == a[0];
    assert (a + b)[1..] == a[1..] + b;
  }

  lemma ConcatAssociative(x: DocRun, y: DocRun, z: DocRun)
    ensures Concat(x, Concat(y, z)) == Concat(Concat(x, y), z)
  {
  }

  /** In particular an item whose libraries reject it adds only its alert; every item before and after still converts. */
  lemma FailureIsolated(before: seq<DocItem>, item: DocItem, after: seq<DocItem>, targetMime: string, convert: Converter)
    requires RouteFor(DispatchExt(item.file.name), targetMime).Some?
    requires convert(RouteFor(DispatchExt(item.file.name), targetMime).value, item.file).Failure?
    ensures ConvertEach(before + [item] + after, targetMime, convert).results ==
              ConvertEach(before, targetMime, convert).results + ConvertEach(after, targetMime, convert).results
  {
    ConvertEachAppend(before + [item], after, targetMime, convert);
    ConvertEachAppend(before, [item], targetMime, convert);
    var single := ConvertEach([item], targetMime, convert);
    assert single.results == [] by {
      assert [item][1..] == [];
      assert ConvertOne(item, targetMime, convert).results == [];
    }
    assert ConvertEach(before + [item], targetMime, convert).results == ConvertEach(before, targetMime, convert).results;
  }

  /** To PDF, every accepted document is routed: each one yields a result or an alert, none is skipped silently. */
  lemma {:induction false} PdfRoutesEverything(items: seq<DocItem>, convert: Converter)
    requires AllSupported(items)
    ensures |ConvertEach(items, PdfMime, convert).results| + |ConvertEach(items, PdfMime, convert).alerts| == |items|
    decreases |items|
  {
    if items != [] {
      SupportedDispatch(items[0].file.name);
      PdfRoutesEverything(items[1..], convert);
    }
  }

  /** How the convert handler ended: normally, or by a `TypeError` before the loop. */
  datatype DocOutcome = DocOutcome(desk: Desk, alerts: seq<Alert>, threw: bool)

  /**
   * The convert button's handler: nothing without files; with no active tab
   * the result list is cleared and reading the tab's `dataset` throws;
   * otherwise the result list is replaced by the loop's results.
   */
  function ConvertDocuments(d: Desk, convert: Converter): (r: DocOutcome)
    ensures |d.items| == 0 ==> r == DocOutcome(d, [], false)
    ensures r.desk.items == d.items && r.desk.tabs == d.tabs && r.desk.nextId == d.nextId
    ensures |d.items| > 0 && d.tabs.active.None? ==> r.threw && r.desk.results == []
    ensures r.threw <==> |d.items| > 0 && d.tabs.active.None?
    ensures |r.desk.results| + |r.alerts| <= |d.items| || r.desk.results == d.results
    ensures |d.items| > 0 && d.tabs.active.Some? ==>
              var run := ConvertEach(d.items, d.tabs.active.value.Mime(), convert);
              r.desk.results == run.results && r.alerts == run.alerts && !r.threw
  {
    if |d.items| == 0 then DocOutcome(d, [], false)
    else
      match d.tabs.active
      case None => DocOutcome(d.(results := []), [], true)
      case Some(t) =>
        var run := ConvertEach(d.items, t.Mime(), convert);
        DocOutcome(d.(results := run.results), run.alerts, false)
  }

  /**
   * After any non-empty intake of supported files, whatever tab is active has
   * a route for the first file, so converting that file is never a silent no-op.
   */
  lemma ActiveTabRoutesFirst(d: Desk, files: seq<File>)
    requires files != []
    requires AllSupported(d.items)
    requires |ReceiveDocuments(d, files).desk.items| > 0
    requires ReceiveDocuments(d, files).desk.tabs.active.Some?
    ensures var desk := ReceiveDocuments(d, files).desk;
            RouteFor(DispatchExt(desk.items[0].file.name), desk.tabs.active.value.Mime()).Some?
  {
    var desk := ReceiveDocuments(d, files).desk;
    ReceiveKeepsInvariants(d, files);
    TabsMatchRoutes(d.tabs, desk.items, desk.tabs.active.value);
  }

  // ---------------------------------------------------------------------------
  // The shared `.tab-btn` click handler
  // ---------------------------------------------------------------------------

  /**
   * A button carrying the `tab-btn` class: one of the image format tabs, with
   * its `data-value`, or one of the document target tabs.
   */
  datatype TabButton = FormatTab(value: string) | TargetTab(target: Target) {
    /** The button's `data-value`. */
    function Value(): string {
      match this
      case FormatTab(v) => v
      case TargetTab(t) => t.Mime()
    }
  }

  /** The document tab bar and the image batch's `selectedFormat` after a click. */
  datatype TabClick = TabClick(tabs: Tabs, selectedFormat: string)

  /**
   * The click handler attached to every `.tab-btn` (script.js:234-240): the
   * `active` mark is removed from all of them, image and document tabs alike,
   * and given to the clicked one; `selectedFormat` becomes its `data-value`
   * whichever bar it sits in. A hidden document tab (`display: none`) cannot
   * be clicked.
   */
  function ClickTab(tabs: Tabs, b: TabButton): (r: TabClick)
    requires b.TargetTab? ==> b.target in tabs.visible
    ensures r.tabs.visible == tabs.visible
    ensures r.selectedFormat == b.Value()
    ensures b.FormatTab? ==> r.tabs.active.None?
    ensures b.TargetTab? ==> r.tabs.active == Some(b.target)
  {
    match b
    case FormatTab(v) => TabClick(Tabs(tabs.visible, None), v)
    case TargetTab(t) => TabClick(Tabs(tabs.visible, Some(t)), t.Mime())
  }

  /**
   * As written, choosing an image format leaves the document bar without an
   * active tab: the next document conversion clears the result list and
   * throws before converting anything, and no later intake repairs the bar.
   */
  lemma FormatClickBreaksConvert(d: Desk, v: string, files: seq<File>, convert: Converter)
    requires |d.items| > 0
    ensures var after := d.(tabs := ClickTab(d.tabs, FormatTab(v)).tabs);
            var out := ConvertDocuments(after, convert);
            out.threw && out.desk.results == [] && out.alerts == []
    ensures var after := d.(tabs := ClickTab(d.tabs, FormatTab(v)).tabs);
            ReceiveDocuments(after, files).desk.tabs.active.None?
  {
  }

  /** The same scenario on concrete values: one text file listed, PNG chosen on the image page. */
  lemma FormatClickScenario(f: File, convert: Converter)
    requires f.name == "notes.txt"
    ensures var d := Desk([DocItem(f, 0)], Tabs({ToPdf, ToDocx}, Some(ToPdf)), 1, []);
            var after := d.(tabs := ClickTab(d.tabs, FormatTab(PngMime)).tabs);
            ConvertDocuments(d, convert).threw == false && ConvertDocuments(after, convert).threw
  {
  }

  /**
   * As written, choosing a document target also sets the image batch's
   * format to a document MIME type.
   */
  lemma TargetClickSetsImageFormat(tabs: Tabs, t: Target)
    requires t in tabs.visible
    ensures ClickTab(tabs, TargetTab(t)).selectedFormat in {PdfMime, TextMime, DocxMime}
    ensures KnownExtension(ClickTab(tabs, TargetTab(t)).selectedFormat).Some?
  {
  }

  /**
   * The evident intent: each bar keeps its own `active` mark, so a format
   * click touches only `selectedFormat` and a target click only the document bar.
   */
  function ClickTabInBar(tabs: Tabs, selectedFormat: string, b: TabButton): (r: TabClick)
    requires b.TargetTab? ==> b.target in tabs.visible
    ensures b.FormatTab? ==> r.tabs == tabs && r.selectedFormat == b.value
    ensures b.TargetTab? ==> r.tabs == Tabs(tabs.visible, Some(b.target)) && r.selectedFormat == selectedFormat
  {
    match b
    case FormatTab(v) => TabClick(tabs, v)
    case TargetTab(t) => TabClick(Tabs(tabs.visible, Some(t)), selectedFormat)
  }

  /**
   * With the corrected handler, choosing an image format changes nothing on
   * the document page: conversion runs the loop for the same target as before.
   */
  lemma FormatClickInBarKeepsConvert(d: Desk, selectedFormat: string, v: string, convert: Converter)
    requires |d.items| > 0 && d.tabs.active.Some?
    ensures var after := d.(tabs := ClickTabInBar(d.tabs, selectedFormat, FormatTab(v)).tabs);
            var out := ConvertDocuments(after, convert);
            var run := ConvertEach(d.items, d.tabs.active.value.Mime(), convert);
            !out.threw && out.desk.results == run.results && out.alerts == run.alerts
  {
  }

  /** With the corrected handler, choosing a document target leaves the image format alone. */
  lemma TargetClickInBarKeepsFormat(tabs: Tabs, selectedFormat: string, t: Target)
    requires t in tabs.visible
    ensures ClickTabInBar(tabs, selectedFormat, TargetTab(t)).selectedFormat == selectedFormat
    ensures ClickTabInBar(tabs, selectedFormat, TargetTab(t)).tabs.active == Some(t)
  {
  }

  // ---------------------------------------------------------------------------
  // TXT to DOCX
  // ---------------------------------------------------------------------------

  /**
   * The paragraphs the DOCX builder receives for a text file: `text.split('\n')`,
   * one paragraph per line, empty lines included, nothing lost.
   */
  function DocxParagraphs(text: string): (lines: seq<string>)
    ensures |lines| == Count(text, '\n') + 1
    ensures forall i :: 0 <= i < |lines| ==> '\n' !in lines[i]
    ensures Join(lines, '\n') == text
  {
    JoinSplit(text, '\n');
    Split(text, '\n')
  }

  /** Splitting the joined paragraphs gives them back: the split loses no structure. */
  lemma ParagraphsRoundTrip(lines: seq<string>)
    requires |lines| >= 1
    requires forall i :: 0 <= i < |lines| ==> '\n' !in lines[i]
    ensures DocxParagraphs(Join(lines, '\n')) == lines
  {
    SplitJoin(lines, '\n');
  }
}

=== FILE: editor.dfy ===
/**
 * The edit modal: zoom (script.js:91-95), the session base captured when the
 * modal opens (script.js:473-504), mode switching (script.js:116-123,
 * 506-525), canvas initialisation and Clear (script.js:210-213, 527-551) and
 * Save (script.js:126-147). Rasters are loaded synchronously: every
 * `onload` is taken to run before the next user action.
 */
module Editor {
  import opened Wrappers
  import opened JsStrings
  import opened Platform
  import opened Images

  // ---------------------------------------------------------------------------
  // Zoom
  // ---------------------------------------------------------------------------

  /** Zoom is kept in quarter steps: `q` stands for `currentZoom == q / 4`, so 1 is 25% and 20 is 500%. */
  const MinZoom := 1
  const MaxZoom := 20
  const FitZoom := 4

  /** `Math.max(0.25, Math.min(5, currentZoom + delta))` in quarter steps. */
  function AdjustZoom(zoom: int, delta: int): (r: int)
    ensures MinZoom <= r <= MaxZoom
    ensures MinZoom <= zoom + delta <= MaxZoom ==> r == zoom + delta
    ensures zoom + delta < MinZoom ==> r == MinZoom
    ensures zoom + delta > MaxZoom ==> r == MaxZoom
  {
    var capped := if zoom + delta < MaxZoom then zoom + delta else MaxZoom;
    if capped > MinZoom then capped else MinZoom
  }

  /** The zoom after a run of button presses, each one step in or out. */
  function ZoomAfter(zoom: int, deltas: seq<int>): int
    decreases |deltas|
  {
    if deltas == [] then zoom else ZoomAfter(AdjustZoom(zoom, deltas[0]), deltas[1..])
  }

  /** Whatever the presses, a zoom that starts in range stays in range. */
  lemma {:induction false} ZoomStaysInRange(zoom: int, deltas: seq<int>)
    requires MinZoom <= zoom <= MaxZoom
    ensures MinZoom <= ZoomAfter(zoom, deltas) <= MaxZoom
    decreases |deltas|
  {
    if deltas != [] {
      ZoomStaysInRange(AdjustZoom(zoom, deltas[0]), deltas[1..]);
    }
  }

  /** Zooming in then out returns to the start exactly when the first press was not absorbed by the upper bound; symmetrically for out then in. */
  lemma ZoomInOut(zoom: int)
    requires MinZoom <= zoom <= MaxZoom
    ensures AdjustZoom(AdjustZoom(zoom, 1), -1) == zoom <==> zoom < MaxZoom
    ensures AdjustZoom(AdjustZoom(zoom, -1), 1) == zoom <==> zoom > MinZoom
  {
  }

  /** `Math.round(currentZoom * 100) + '%'`: a quarter step is exactly 25%. */
  function ZoomLabel(zoom: nat): (r: string)
    ensures |r| >= 2 && r[|r| - 1] == '%'
    ensures forall k :: 0 <= k < |r| - 1 ==> IsDecimalDigit(r[k])
    ensures DigitsValue(r[..|r| - 1], 10) == 25 * zoom
  {
    var digits := Decimal(25 * zoom);
    DecimalValue(25 * zoom);
    assert (digits + "%")[..|digits|] == digits;
    digits + "%"
  }

  /** The fitted zoom reads `100%`, the text canvas initialisation writes. */
  lemma FitZoomLabel()
    ensures ZoomLabel(FitZoom) == "100%"
  {
    assert Decimal(1) == "1";
    assert Decimal(10) == "10";
    assert Decimal(100) == "100";
  }

  /** Different zoom levels read differently. */
  lemma ZoomLabelInjective(a: nat, b: nat)
    ensures ZoomLabel(a) == ZoomLabel(b) <==> a == b
  {
    if ZoomLabel(a) == ZoomLabel(b) {
      assert Decimal(25 * a) == ZoomLabel(a)[..|ZoomLabel(a)| - 1];
      assert Decimal(25 * b) == ZoomLabel(b)[..|ZoomLabel(b)| - 1];
      DecimalInjective(25 * a, 25 * b);
    }
  }

  // ---------------------------------------------------------------------------
  // Session state
  // ---------------------------------------------------------------------------

  /** The modal's two tabs. */
  datatype Mode = Crop | Draw

  /**
   * The Cropper widget at the moment Save is pressed: not created yet, or
   * created with what `getCroppedCanvas()` returns (`None` for `null`).
   */
  datatype CropWidget = Absent | Widget(cropped: Option<Raster>)

  /**
   * The script's editor variables: the image list, `currentEditingId`,
   * `currentMode`, `currentZoom` in quarter steps, the drawing canvas and
   * whether the modal is showing.
   */
  datatype Editor = Editor(items: seq<ImageItem>, editingId: Option<nat>, mode: Mode, zoom: int, canvas: Raster, open: bool)

  /** `uploadedImages.findIndex(img => img.id === id)`, with `None` for -1. */
  function FindIndex(items: seq<ImageItem>, id: nat): (r: Option<nat>)
    ensures r.Some? ==> r.value < |items| && items[r.value].id == id
    ensures r.Some? ==> forall j :: 0 <= j < r.value ==> items[j].id != id
    ensures r.None? <==> forall j :: 0 <= j < |items| ==> items[j].id != id
    decreases |items|
  {
    if items == [] then None
    else if items[0].id == id then Some(0)
    else
      match FindIndex(items[1..], id)
      case None => None
      case Some(k) => Some(k + 1)
  }

  /** With distinct ids, looking up an item's id finds that item. */
  lemma FindIndexDistinct(items: seq<ImageItem>, k: nat)
    requires IdsDistinct(items)
    requires k < |items|
    ensures FindIndex(items, items[k].id) == Some(k)
  {
    var r := FindIndex(items, items[k].id);
    assert r.Some?;
  }

  /** The same ids and session bases, position by position. */
  predicate SameSessions(a: seq<ImageItem>, b: seq<ImageItem>) {
    |a| == |b| && forall k :: 0 <= k < |a| ==> a[k].id == b[k].id && a[k].sessionBase == b[k].sessionBase
  }

  /** Lookups by id only see ids. */
  lemma {:induction false} FindIndexSameSessions(a: seq<ImageItem>, b: seq<ImageItem>, id: nat)
    requires SameSessions(a, b)
    ensures FindIndex(a, id) == FindIndex(b, id)
    decreases |a|
  {
    if a != [] {
      assert a[0].id == b[0].id;
      assert SameSessions(a[1..], b[1..]) by {
        forall k | 0 <= k < |a[1..]|
          ensures a[1..][k].id == b[1..][k].id && a[1..][k].sessionBase == b[1..][k].sessionBase
        {
          assert a[1..][k] == a[k + 1] && b[1..][k] == b[k + 1];
        }
      }
      FindIndexSameSessions(a[1..], b[1..], id);
    }
  }

  // ---------------------------------------------------------------------------
  // Operations
  // ---------------------------------------------------------------------------

  /**
   * `initDrawCanvas(item, isClear)` once its image has loaded: the zoom
   * returns to fit; with a session open on the item the canvas takes the
   * session's full-resolution size and the picture drawn into it is the
   * session base for Clear, else the item's current picture. Without a
   * session, a Clear loads from an `undefined` source, which never loads,
   * so nothing changes; any other load throws in the size lookup right
   * after the zoom reset.
   */
  function InitDraw(e: Editor, item: ImageItem, clear: bool): (r: Editor)
    ensures item.sessionBase.Some? || !clear ==> r.zoom == FitZoom
    ensures item.sessionBase.None? && clear ==> r == e
    ensures r.items == e.items && r.editingId == e.editingId && r.mode == e.mode && r.open == e.open
    ensures item.sessionBase.None? ==> r.canvas == e.canvas
    ensures item.sessionBase.Some? ==>
              r.canvas.width == item.sessionBase.value.width && r.canvas.height == item.sessionBase.value.height
    ensures item.sessionBase.Some? && clear ==> r.canvas == item.sessionBase.value
    ensures item.sessionBase.Some? && !clear ==> r.canvas.pixels == Current(item).pixels
  {
    match item.sessionBase
    case None => if clear then e else e.(zoom := FitZoom)
    case Some(base) =>
      var source := if clear then base else Current(item);
      e.(zoom := FitZoom, canvas := Raster(source.pixels, base.width, base.height))
  }

  /** The item the modal is editing, found by `currentEditingId`. */
  function Editing(e: Editor): Option<nat> {
    match e.editingId
    case None => None
    case Some(id) => FindIndex(e.items, id)
  }

  /** A tab click followed by `updateModalUI`: the Draw tab initialises the canvas from the edited item; Crop hands it to the Cropper widget. */
  function SelectMode(e: Editor, mode: Mode): (r: Editor)
    ensures r.mode == mode
    ensures r.items == e.items && r.editingId == e.editingId && r.open == e.open
    ensures mode == Crop || Editing(e).None? ==> r == e.(mode := mode)
    ensures mode == Draw && Editing(e).Some? ==> r == InitDraw(e.(mode := mode), e.items[Editing(e).value], false)
  {
    var switched := e.(mode := mode);
    match Editing(e)
    case None => switched
    case Some(k) => if mode == Draw then InitDraw(switched, e.items[k], false) else switched
  }

  /**
   * `openEditModal(item)` once the picture has loaded: the edited id is set,
   * the item's session base becomes its current picture, the modal shows and
   * its first tab is clicked.
   */
  function Open(e: Editor, i: nat, firstTab: Mode): (r: Editor)
    requires i < |e.items|
    ensures |r.items| == |e.items|
    ensures r.items[i] == e.items[i].(sessionBase := Some(Current(e.items[i])))
    ensures forall j :: 0 <= j < |e.items| && j != i ==> r.items[j] == e.items[j]
    ensures r.editingId == Some(e.items[i].id) && r.open && r.mode == firstTab
  {
    var item := e.items[i];
    var session := e.(items := e.items[i := item.(sessionBase := Some(Current(item)))],
                      editingId := Some(item.id), open := true);
    SelectMode(session, firstTab)
  }

  /** A pen stroke changes the canvas's pixels and nothing else. */
  function DrawStroke(e: Editor, pixels: nat): (r: Editor)
    ensures r.canvas.width == e.canvas.width && r.canvas.height == e.canvas.height
    ensures r.canvas.pixels == pixels
    ensures r.(canvas := e.canvas) == e
  {
    e.(canvas := Raster(pixels, e.canvas.width, e.canvas.height))
  }

  /** The Clear button: re-initialise the canvas from the edited item's session base; nothing without an edited item. */
  function Clear(e: Editor): (r: Editor)
    ensures Editing(e).None? ==> r == e
    ensures Editing(e).Some? ==> r == InitDraw(e, e.items[Editing(e).value], true)
  {
    match Editing(e)
    case None => e
    case Some(k) => InitDraw(e, e.items[k], true)
  }

  /**
   * The Save button. Without an edited item nothing happens. In Crop mode
   * with a widget the item's edit becomes the cropped canvas, `null`
   * included; in Draw mode it becomes a copy of the canvas; otherwise it is
   * kept. Refreshing the preview throws on a `null` edit, which leaves the
   * modal open; otherwise the modal closes.
   */
  function Save(e: Editor, cropper: CropWidget): (r: Editor)
    ensures |r.items| == |e.items|
    ensures Editing(e).None? ==> r == e
    ensures Editing(e).Some? ==>
              var k := Editing(e).value;
              && (forall j :: 0 <= j < |e.items| && j != k ==> r.items[j] == e.items[j])
              && r.items[k].(edited := e.items[k].edited) == e.items[k]
              && (e.mode == Draw ==> r.items[k].edited == Some(e.canvas))
              && (e.mode == Crop && cropper.Widget? ==> r.items[k].edited == cropper.cropped)
              && (e.mode == Crop && cropper.Absent? ==> r.items[k].edited == e.items[k].edited)
              && (r.open <==> r.items[k].edited.None? && e.open)
    ensures r.editingId == e.editingId && r.mode == e.mode && r.canvas == e.canvas && r.zoom == e.zoom
  {
    match Editing(e)
    case None => e
    case Some(k) =>
      var edited :=
        if e.mode == Crop && cropper.Widget? then cropper.cropped
        else if e.mode == Draw then Some(e.canvas)
        else e.items[k].edited;
      var items := e.items[k := e.items[k].(edited := edited)];
      e.(items := items, open := edited.None? && e.open)
  }

  // ---------------------------------------------------------------------------
  // Sessions
  // ---------------------------------------------------------------------------

  /** What the user can do while the modal is open. */
  datatype Action = Paint(pixels: nat) | ZoomBy(delta: int) | PickMode(mode: Mode) | SaveWith(cropper: CropWidget) | ClearCanvas

  function Apply(e: Editor, a: Action): Editor {
    match a
    case Paint(p) => DrawStroke(e, p)
    case ZoomBy(d) => e.(zoom := AdjustZoom(e.zoom, d))
    case PickMode(m) => SelectMode(e, m)
    case SaveWith(c) => Save(e, c)
    case ClearCanvas => Clear(e)
  }

  function Replay(e: Editor, actions: seq<Action>): Editor
    decreases |actions|
  {
    if actions == [] then e else Replay(Apply(e, actions[0]), actions[1..])
  }

  /** No action changes which item is being edited or any item's session base. */
  lemma ApplyKeepsSessions(e: Editor, a: Action)
    ensures SameSessions(e.items, Apply(e, a).items)
    ensures Apply(e, a).editingId == e.editingId
  {
  }

  lemma {:induction false} ReplayKeepsSessions(e: Editor, actions: seq<Action>)
    ensures SameSessions(e.items, Replay(e, actions).items)
    ensures Replay(e, actions).editingId == e.editingId
    decreases |actions|
  {
    if actions != [] {
      var next := Apply(e, actions[0]);
      ApplyKeepsSessions(e, actions[0]);
      ReplayKeepsSessions(next, actions[1..]);
    }
  }

  /**
   * Clear after any edits returns the canvas to the picture the item showed
   * when the modal opened (its saved edit if it had one, else the original),
   * at fitted zoom.
   */
  lemma ClearRestoresSessionBase(e: Editor, i: nat, firstTab: Mode, actions: seq<Action>)
    requires i < |e.items|
    requires IdsDistinct(e.items)
    ensures Clear(Replay(Open(e, i, firstTab), actions)).canvas == Current(e.items[i])
    ensures Clear(Replay(Open(e, i, firstTab), actions)).zoom == FitZoom
  {
    var o := Open(e, i, firstTab);
    var s := Replay(o, actions);
    assert IdsDistinct(o.items) by {
      forall a, b | 0 <= a < b < |o.items|
        ensures o.items[a].id != o.items[b].id
      {
        assert o.items[a].id == e.items[a].id && o.items[b].id == e.items[b].id;
      }
    }
    FindIndexDistinct(o.items, i);
    ReplayKeepsSessions(o, actions);
    FindIndexSameSessions(o.items, s.items, e.items[i].id);
    assert Editing(s) == Some(i);
    assert s.items[i].sessionBase == Some(Current(e.items[i]));
  }

  /** Clear does not depend on the strokes or the zoom before it. */
  lemma ClearForgetsCanvas(e: Editor, canvas: Raster, zoom: int)
    requires Editing(e).Some? && e.items[Editing(e).value].sessionBase.Some?
    ensures Clear(e.(canvas := canvas, zoom := zoom)) == Clear(e)
  {
    assert Editing(e.(canvas := canvas, zoom := zoom)) == Editing(e);
  }

  /** In particular Clear discards a stroke. */
  lemma ClearDiscardsStroke(e: Editor, pixels: nat)
    requires Editing(e).Some? && e.items[Editing(e).value].sessionBase.Some?
    ensures Clear(DrawStroke(e, pixels)) == Clear(e)
  {
    ClearForgetsCanvas(e, DrawStroke(e, pixels).canvas, e.zoom);
  }

  /** Saving during a session writes the opened item, with distinct ids, and no other. */
  lemma SaveWritesOpenedItem(e: Editor, i: nat, firstTab: Mode, actions: seq<Action>, cropper: CropWidget)
    requires i < |e.items|
    requires IdsDistinct(e.items)
    ensures var s := Replay(Open(e, i, firstTab), actions);
            forall j :: 0 <= j < |s.items| && j != i ==> Save(s, cropper).items[j] == s.items[j]
  {
    var o := Open(e, i, firstTab);
    var s := Replay(o, actions);
    assert IdsDistinct(o.items) by {
      forall a, b | 0 <= a < b < |o.items|
        ensures o.items[a].id != o.items[b].id
      {
        assert o.items[a].id == e.items[a].id && o.items[b].id == e.items[b].id;
      }
    }
    FindIndexDistinct(o.items, i);
    ReplayKeepsSessions(o, actions);
    FindIndexSameSessions(o.items, s.items, e.items[i].id);
    assert Editing(s) == Some(i);
  }
}

=== FILE: images.dfy ===
/**
 * The image converter: intake (`handleFiles`, script.js:368-383), the resize
 * arithmetic of `processImage` (script.js:573-600) with its target read by
 * `parseInt(...) || null` (script.js:264), and the convert-all handler
 * (script.js:256-283). Decoding and `canvas.toBlob` are parameters.
 */
module Images {
  import opened Wrappers
  import opened JsStrings
  import opened Naming
  import opened Platform

  /**
   * An entry of `uploadedImages`: the file, the picture its object URL
   * decodes to, the saved edit if any, the snapshot taken when an edit
   * session last opened on it if ever, and its id.
   */
  datatype ImageItem = ImageItem(file: File, original: Raster, edited: Option<Raster>, sessionBase: Option<Raster>, id: nat)

  /** `item.editedCanvas || img`: a saved edit takes precedence over the original picture. */
  function Current(item: ImageItem): Raster {
    item.edited.GetOr(item.original)
  }

  /** `file.type.startsWith('image/')`. */
  predicate IsImage(f: File) {
    StartsWith(f.mime, "image/")
  }

  predicate IdsDistinct(items: seq<ImageItem>) {
    forall i, j :: 0 <= i < j < |items| ==> items[i].id != items[j].id
  }

  predicate IdsBelow(items: seq<ImageItem>, bound: nat) {
    forall k :: 0 <= k < |items| ==> items[k].id < bound
  }

  // ---------------------------------------------------------------------------
  // Intake
  // ---------------------------------------------------------------------------

  /** The browser's image decoder: the picture a file's object URL loads as. */
  type Decoder = File -> Raster

  /** Reference definition of what intake keeps: the image files, in order. */
  function ImageFiles(files: seq<File>): seq<File> {
    if files == [] then []
    else (if IsImage(files[0]) then [files[0]] else []) + ImageFiles(files[1..])
  }

  /** The list after an intake and the next fresh id. */
  datatype ImageIntake = ImageIntake(items: seq<ImageItem>, nextId: nat)

  /**
   * The loop of `handleFiles`: every file whose type starts with `image/` is
   * appended, unedited, under a fresh id; other files are passed over.
   */
  function AddImages(items: seq<ImageItem>, files: seq<File>, decode: Decoder, nextId: nat): (r: ImageIntake)
    ensures |r.items| == |items| + |ImageFiles(files)|
    ensures r.items[..|items|] == items
    ensures r.nextId == nextId + |ImageFiles(files)|
    decreases |files|
  {
    if files == [] then ImageIntake(items, nextId)
    else
      var f := files[0];
      var step := if IsImage(f) then items + [ImageItem(f, decode(f), None, None, nextId)] else items;
      var rest := AddImages(step, files[1..], decode, if IsImage(f) then nextId + 1 else nextId);
      assert rest.items[..|items|] == step[..|items|];
      rest
  }

  /** From position `from` on, `after` holds one unedited entry per file of `added`, in order, numbered consecutively from `nextId`. */
  predicate Appended(after: seq<ImageItem>, from: nat, added: seq<File>, decode: Decoder, nextId: nat) {
    |after| == from + |added| &&
    forall k :: from <= k < |after| ==>
      after[k] == ImageItem(added[k - from], decode(added[k - from]), None, None, nextId + (k - from))
  }

  /** The entries intake appends: one per image file, in order, unedited, numbered consecutively from `nextId`. */
  lemma {:induction false} AddImagesContents(items: seq<ImageItem>, files: seq<File>, decode: Decoder, nextId: nat)
    ensures Appended(AddImages(items, files, decode, nextId).items, |items|, ImageFiles(files), decode, nextId)
    decreases |files|
  {
    if files != [] {
      var f := files[0];
      var fs := ImageFiles(files[1..]);
      if IsImage(f) {
        var item := ImageItem(f, decode(f), None, None, nextId);
        var step := items + [item];
        AddImagesContents(step, files[1..], decode, nextId + 1);
        var r := AddImages(step, files[1..], decode, nextId + 1).items;
        assert AddImages(items, files, decode, nextId).items == r;
        assert ImageFiles(files) == [f] + fs;
        forall k | |items| <= k < |r|
          ensures r[k] == ImageItem(([f] + fs)[k - |items|], decode(([f] + fs)[k - |items|]), None, None, nextId + (k - |items|))
        {
          if k == |items| {
            assert r[k] == r[..|step|][k] == step[k];
          } else {
            assert ([f] + fs)[k - |items|] == fs[k - (|items| + 1)];
          }
        }
      } else {
        AddImagesContents(items, files[1..], decode, nextId);
        assert AddImages(items, files, decode, nextId) == AddImages(items, files[1..], decode, nextId);
        assert ImageFiles(files) == fs;
      }
    }
  }

  /** Intake keeps ids distinct and below the fresh-id supply. */
  lemma AddImagesFreshIds(items: seq<ImageItem>, files: seq<File>, decode: Decoder, nextId: nat)
    requires IdsDistinct(items) && IdsBelow(items, nextId)
    ensures IdsDistinct(AddImages(items, files, decode, nextId).items)
    ensures IdsBelow(AddImages(items, files, decode, nextId).items, AddImages(items, files, decode, nextId).nextId)
  {
    var r := AddImages(items, files, decode, nextId);
    AddImagesContents(items, files, decode, nextId);
    forall i, j | 0 <= i < j < |r.items|
      ensures r.items[i].id != r.items[j].id
    {
      if i < |items| {
        assert r.items[i] == items[i];
      }
    }
    forall k | 0 <= k < |r.items|
      ensures r.items[k].id < r.nextId
    {
      if k < |items| {
        assert r.items[k] == items[k];
      } else {
        assert r.items[k].id == nextId + (k - |items|);
      }
    }
  }

  // ---------------------------------------------------------------------------
  // Resize
  // ---------------------------------------------------------------------------

  /** `parseInt(field) || null`: NaN and zero both mean no target. */
  function ResizeTarget(field: string): (r: Option<int>)
    ensures r.None? <==> ParseInt(field).None? || ParseInt(field) == Some(0)
    ensures r.Some? ==> r == ParseInt(field) && r.value != 0
  {
    match ParseInt(field)
    case None => None
    case Some(n) => if n == 0 then None else Some(n)
  }

  /** Every positive width typed as a plain numeral becomes the target; a blank or zero field gives none. */
  lemma ResizeTargetReadsNumerals(n: nat, blank: string)
    requires forall k :: 0 <= k < |blank| ==> IsSpace(blank[k])
    ensures n > 0 ==> ResizeTarget(Decimal(n)) == Some(n)
    ensures ResizeTarget(Decimal(0)) == None
    ensures ResizeTarget(blank) == None
  {
    ParseDecimal(n);
    ParseDecimal(0);
    ParseBlank(blank);
  }

  /** The drawn size: an integral width and the height as the exact product `source.height * ratio`. */
  datatype Size = Size(width: int, height: real)

  /**
   * The resize branch of `processImage`: with a target narrower than the
   * source the width becomes the target and the height follows the aspect
   * ratio; otherwise the source size is kept.
   */
  function Resize(width: Dim, height: Dim, target: Option<int>): (r: Size)
    ensures r.width <= width
    ensures r.width < width <==> target.Some? && target.value < width
    ensures target.Some? && target.value < width ==> r.width == target.value
    ensures r.width == width ==> r.height == height as real
  {
    if target.Some? && target.value < width then
      Size(target.value, (height as real) * ((target.value as real) / (width as real)))
    else Size(width, height as real)
  }

  /** The pixel size of the output canvas. */
  datatype Canvas = Canvas(width: nat, height: nat)

  /** The largest value a reflected `unsigned long` attribute takes as set. */
  const MaxReflected: int := 0x7FFF_FFFF

  /** ECMAScript's truncation toward zero. */
  function Truncate(x: real): (t: int)
    ensures x >= 0.0 ==> t == x.Floor
    ensures x < 0.0 ==> t == -((-x).Floor)
  {
    if x >= 0.0 then x.Floor else -((-x).Floor)
  }

  /**
   * Assigning a number to `canvas.width` or `canvas.height`: the WebIDL
   * `unsigned long` conversion truncates toward zero and wraps modulo 2^32,
   * and a reflected attribute set above 2^31 - 1 takes its default instead.
   */
  function CanvasDim(x: real, default: nat): (n: nat)
    ensures 0.0 <= x < 2147483648.0 ==> n == x.Floor
    ensures -1.0 < x < 0.0 ==> n == 0
    ensures -2147483648.0 <= x <= -1.0 ==> n == default
  {
    var w := Truncate(x) % 0x1_0000_0000;
    if w <= MaxReflected then w else default
  }

  /** `canvas.width = width; canvas.height = height`, with the defaults 300 and 150. */
  function CanvasSize(s: Size): (r: Canvas)
    ensures 0 <= s.width <= MaxReflected ==> r.width == s.width
    ensures -0x8000_0000 <= s.width < 0 ==> r.width == 300
    ensures 0.0 <= s.height < 2147483648.0 ==> r.height == s.height.Floor
    ensures -1.0 < s.height < 0.0 ==> r.height == 0
    ensures -2147483648.0 <= s.height <= -1.0 ==> r.height == 150
  {
    Canvas(CanvasDim(s.width as real, 300), CanvasDim(s.height, 150))
  }

  /** With no target or a positive one, the canvas is exactly as wide as the drawn picture, and no wider than the source. */
  lemma CanvasWithinSource(width: Dim, height: Dim, target: Option<int>)
    requires target.None? || target.value > 0
    ensures width <= MaxReflected ==>
              CanvasSize(Resize(width, height, target)).width == Resize(width, height, target).width <= width
  {
  }

  /**
   * A negative width passes `parseInt(...) || null` and the `targetWidth <
   * width` test, so it is drawn at; the canvas then rejects it and keeps its
   * default width of 300, wider than a 200-pixel source.
   */
  lemma NegativeTargetWidens()
    ensures ResizeTarget("-5") == Some(-5)
    ensures Resize(200, 100, Some(-5)).width == -5
    ensures Resize(200, 100, Some(-5)).height < 0.0
    ensures CanvasSize(Resize(200, 100, Some(-5))).width == 300
  {
    assert LeadingSpace("-5") == 0;
    assert TrimStart("-5") == "-5";
    assert "-5"[1..] == "5";
    assert DigitRun("5", 10) == 1;
    assert DigitsValue("5", 10) == 5 by {
      assert Decimal(5) == "5";
      DecimalValue(5);
    }
  }

  /** Resizing keeps the aspect ratio: height over width is the source's. */
  lemma ResizeKeepsAspect(width: Dim, height: Dim, target: Option<int>)
    ensures var r := Resize(width, height, target);
            r.height * (width as real) == (height as real) * (r.width as real)
  {
    if target.Some? && target.value < width {
      var ratio := (target.value as real) / (width as real);
      assert ratio * (width as real) == target.value as real;
      assert (height as real) * ratio * (width as real) == (height as real) * (target.value as real);
    }
  }

  /** The width field `500` asks for a width of 500. */
  lemma ScenarioTarget()
    ensures ResizeTarget("500") == Some(500)
  {
    assert Decimal(5) == "5";
    assert Decimal(50) == "50";
    assert Decimal(500) == "500";
    ParseDecimal(500);
  }

  /**
   * A 1000x500 picture at width 500 is drawn at 500x250; a 1000x1 picture at
   * width 500 would be drawn half a pixel high.
   */
  lemma ScenarioResize()
    ensures Resize(1000, 500, Some(500)) == Size(500, 250.0)
    ensures CanvasSize(Resize(1000, 500, Some(500))) == Canvas(500, 250)
    ensures Resize(1000, 1, Some(500)).height == 0.5
    ensures CanvasSize(Resize(1000, 1, Some(500))) == Canvas(500, 0)
  {
  }

  /** `photo.png` converted to JPEG without a prefix is offered as `photo.jpg`. */
  lemma ScenarioName()
    ensures BatchName("photo.png", JpegMime, "", 0) == Success("photo.jpg")
  {
    var name := "photo.png";
    assert name[5] == '.' && '.' !in name[6..];
    LastIndexOfUnique(name, '.', 5);
    assert BaseName(name) == "photo";
    assert Trim("") == "";
    assert "photo" + "." + "jpg" == "photo.jpg";
  }

  // ---------------------------------------------------------------------------
  // Convert all
  // ---------------------------------------------------------------------------

  /** A row of the image result list. */
  datatype ImageResult = ImageResult(name: string, blob: Blob, originalSize: nat, newSize: nat, width: int, height: real)

  /**
   * `canvas.toBlob` on the source drawn at a size into a canvas of a pixel
   * size, in a format at a quality (the slider's 0-100 value); `None` when the
   * platform hands `null` to the callback, as it does for a canvas with no
   * pixels.
   */
  type Encoder = (Raster, Size, Canvas, string, int) -> Option<Blob>

  /** The batch settings read once when the button is pressed. */
  datatype Options = Options(format: string, quality: int, resizeField: string, prefixField: string)

  /**
   * One item: `Stalled` when `toBlob` hands `null` (the callback throws and
   * the promise never settles), `Skipped` when naming throws, else the row.
   */
  datatype Conversion = Stalled | Skipped | Converted(result: ImageResult)

  function ConvertItem(item: ImageItem, index: nat, opts: Options, encode: Encoder): (r: Conversion)
    ensures r.Converted? ==> r.result.newSize == r.result.blob.size && r.result.originalSize == item.file.size
  {
    var source := Current(item);
    var size := Resize(source.width, source.height, ResizeTarget(opts.resizeField));
    match encode(source, size, CanvasSize(size), opts.format, opts.quality)
    case None => Stalled
    case Some(blob) =>
      match BatchName(item.file.name, opts.format, opts.prefixField, index)
      case Failure(_) => Skipped
      case Success(name) => Converted(ImageResult(name, blob, item.file.size, blob.size, size.width, size.height))
  }

  /**
   * What decides an item's outcome: a null blob stalls it, a MIME type naming
   * cannot handle skips it, and otherwise its row carries the batch name of
   * its position and a width no larger than its source's.
   */
  lemma ConvertItemOutcome(item: ImageItem, index: nat, opts: Options, encode: Encoder)
    ensures var source := Current(item);
            var size := Resize(source.width, source.height, ResizeTarget(opts.resizeField));
            var blob := encode(source, size, CanvasSize(size), opts.format, opts.quality);
            var r := ConvertItem(item, index, opts, encode);
            && (r.Stalled? <==> blob.None?)
            && (r.Skipped? <==> blob.Some? && KnownExtension(opts.format).None? && '/' !in opts.format)
            && (r.Converted? ==> Success(r.result.name) == BatchName(item.file.name, opts.format, opts.prefixField, index)
                                 && r.result.width <= source.width && r.result.blob == blob.value)
  {
  }

  /** The loop body's work on one item at its 0-based position. */
  type Step = (ImageItem, nat) -> Conversion

  /** `processImage` followed by the rename, under the settings of one press of the button. */
  function ItemStep(opts: Options, encode: Encoder): Step {
    (item: ImageItem, index: nat) => ConvertItem(item, index, opts, encode)
  }

  /** How far the loop got: the rows pushed, and whether it reached its end. */
  datatype Run = Run(results: seq<ImageResult>, settled: bool)

  /**
   * The loop as written, from position `start` on: a stalled item leaves the
   * `await` pending forever, so no later item is converted.
   */
  function RunAsWritten(items: seq<ImageItem>, start: nat, step: Step): (r: Run)
    ensures |r.results| <= |items|
    decreases |items|
  {
    if items == [] then Run([], true)
    else
      match step(items[0], start)
      case Stalled => Run([], false)
      case Skipped => RunAsWritten(items[1..], start + 1, step)
      case Converted(res) =>
        var rest := RunAsWritten(items[1..], start + 1, step);
        Run([res] + rest.results, rest.settled)
  }

  /** The rows one item contributes: its result when it converted, none otherwise. */
  function Rows(c: Conversion): (r: seq<ImageResult>)
    ensures |r| <= 1
    ensures c.Converted? ==> r == [c.result]
    ensures !c.Converted? ==> r == []
  {
    if c.Converted? then [c.result] else []
  }

  /**
   * The loop as intended: an item whose encoding fails is passed over like
   * one whose naming fails, and the loop always reaches its end.
   */
  function Collect(items: seq<ImageItem>, start: nat, step: Step): (r: seq<ImageResult>)
    ensures |r| <= |items|
    decreases |items|
  {
    if items == [] then []
    else Rows(step(items[0], start)) + Collect(items[1..], start + 1, step)
  }

  /** The rows of a batch over a concatenation are the rows of the parts: input order is kept and a failure touches only its own item. */
  lemma {:induction false} CollectAppend(a: seq<ImageItem>, b: seq<ImageItem>, start: nat, step: Step)
    ensures Collect(a + b, start, step) == Collect(a, start, step) + Collect(b, start + |a|, step)
    decreases |a|
  {
    if a == [] {
      assert a + b == b;
    } else {
      assert (a + b)[0] == a[0];
      assert (a + b)[1..] == a[1..] + b;
      CollectAppend(a[1..], b, start + 1, step);
    }
  }

  /** Where no item stalls, the loop as written settles and agrees with the intended one. */
  lemma {:induction false} AsWrittenAgreesWithoutNullBlob(items: seq<ImageItem>, start: nat, step: Step)
    requires forall k :: 0 <= k < |items| ==> step(items[k], start + k) != Stalled
    ensures RunAsWritten(items, start, step) == Run(Collect(items, start, step), true)
    decreases |items|
  {
    if items != [] {
      assert step(items[0], start + 0) != Stalled;
      forall k | 0 <= k < |items[1..]|
        ensures step(items[1..][k], start + 1 + k) != Stalled
      {
        assert items[1..][k] == items[k + 1];
      }
      AsWrittenAgreesWithoutNullBlob(items[1..], start + 1, step);
    }
  }

  /**
   * The loop as written stops for good at the first stalled item: it has the
   * rows of the earlier items only and never settles.
   */
  lemma {:induction false} AsWrittenStopsAtNullBlob(items: seq<ImageItem>, start: nat, step: Step, k: nat)
    requires k < |items|
    requires step(items[k], start + k) == Stalled
    requires forall j :: 0 <= j < k ==> step(items[j], start + j) != Stalled
    ensures RunAsWritten(items, start, step) == Run(Collect(items[..k], start, step), false)
    decreases k
  {
    if k == 0 {
      assert items[..0] == [];
    } else {
      forall j | 0 <= j < k - 1
        ensures step(items[1..][j], start + 1 + j) != Stalled
      {
        assert items[1..][j] == items[j + 1];
      }
      assert items[1..][k - 1] == items[k];
      assert step(items[0], start + 0) != Stalled;
      AsWrittenStopsAtNullBlob(items[1..], start + 1, step, k - 1);
      assert items[1..][..k - 1] == items[..k][1..];
    }
  }

  /** The intended loop passes over a stalled item and goes on to the later ones. */
  lemma IntendedSkipsNullBlob(items: seq<ImageItem>, start: nat, step: Step, k: nat)
    requires k < |items|
    requires step(items[k], start + k) == Stalled
    ensures Collect(items, start, step) == Collect(items[..k], start, step) + Collect(items[k + 1..], start + k + 1, step)
  {
    assert items == items[..k] + items[k..];
    CollectAppend(items[..k], items[k..], start, step);
    assert items[k..][0] == items[k];
    assert items[k..][1..] == items[k + 1..];
  }

  /** The result list and the visibility of the download-all button. */
  datatype Page = Page(results: seq<ImageResult>, zipShown: bool)

  /** The convert-all handler as intended: nothing without images; otherwise the list is replaced and the zip button shown for more than one row. */
  function ConvertAll(p: Page, items: seq<ImageItem>, opts: Options, encode: Encoder): (r: Page)
    ensures items == [] ==> r == p
    ensures items != [] ==> (r.zipShown <==> |r.results| > 1)
    ensures items != [] ==> |r.results| <= |items|
    ensures items != [] ==> r.results == Collect(items, 0, ItemStep(opts, encode))
  {
    if items == [] then p
    else
      var results := Collect(items, 0, ItemStep(opts, encode));
      Page(results, |results| > 1)
  }

  /** The handler as written, with whether it settles. */
  datatype BatchOutcome = BatchOutcome(page: Page, settled: bool)

  /** A stalled loop never reaches the zip-button update, so the button stays as it was. */
  function ConvertAllAsWritten(p: Page, items: seq<ImageItem>, opts: Options, encode: Encoder): (r: BatchOutcome)
    ensures items == [] ==> r == BatchOutcome(p, true)
    ensures items != [] && r.settled ==> (r.page.zipShown <==> |r.page.results| > 1)
    ensures !r.settled ==> r.page.zipShown == p.zipShown
    ensures items != [] ==>
              var run := RunAsWritten(items, 0, ItemStep(opts, encode));
              r.page.results == run.results && r.settled == run.settled
  {
    if items == [] then BatchOutcome(p, true)
    else
      var run := RunAsWritten(items, 0, ItemStep(opts, encode));
      if run.settled then BatchOutcome(Page(run.results, |run.results| > 1), true)
      else BatchOutcome(Page(run.results, p.zipShown), false)
  }

  /** The two handlers agree exactly when the loop as written settles. */
  lemma AsWrittenSettledAgrees(p: Page, items: seq<ImageItem>, opts: Options, encode: Encoder)
    requires forall k :: 0 <= k < |items| ==> ConvertItem(items[k], k, opts, encode) != Stalled
    ensures ConvertAllAsWritten(p, items, opts, encode) == BatchOutcome(ConvertAll(p, items, opts, encode), true)
  {
    var step := ItemStep(opts, encode);
    forall k | 0 <= k < |items|
      ensures step(items[k], 0 + k) != Stalled
    {
      assert step(items[k], k) == ConvertItem(items[k], k, opts, encode);
    }
    AsWrittenAgreesWithoutNullBlob(items, 0, step);
  }

  /** When every item converts, every item yields its own row in order. */
  lemma {:induction false} AllConvert(items: seq<ImageItem>, start: nat, step: Step)
    requires forall k :: 0 <= k < |items| ==> step(items[k], start + k).Converted?
    ensures |Collect(items, start, step)| == |items|
    ensures forall k :: 0 <= k < |items| ==> Collect(items, start, step)[k] == step(items[k], start + k).result
    decreases |items|
  {
    if items != [] {
      assert step(items[0], start + 0).Converted?;
      forall k | 0 <= k < |items[1..]|
        ensures step(items[1..][k], start + 1 + k).Converted?
      {
        assert items[1..][k] == items[k + 1];
      }
      AllConvert(items[1..], start + 1, step);
      forall k | 1 <= k < |items|
        ensures Collect(items, start, step)[k] == step(items[k], start + k).result
      {
        assert items[1..][k - 1] == items[k];
      }
    }
  }

  /** The number between a leading `p` and a trailing `e` of a name, less one; -1 when the name is too short. */
  function NumberBetween(name: string, p: string, e: string): int {
    if |p| + |e| <= |name| then DigitsValue(name[|p|..|name| - |e|], 10) - 1 else -1
  }

  lemma NumberBetweenFramed(p: string, n: nat, e: string)
    ensures NumberBetween(p + Decimal(n + 1) + e, p, e) == n
  {
    var d := Decimal(n + 1);
    assert (p + d + e)[|p|..|p + d + e| - |e|] == d;
    DecimalValue(n + 1);
  }

  /** The position a prefixed name of the batch encodes: the number between the prefix and the extension, less one. */
  function PositionInName(name: string, opts: Options): int {
    match Extension(opts.format)
    case Failure(_) => -1
    case Success(ext) => NumberBetween(name, Trim(opts.prefixField), "." + LastSegment(ext, '.'))
  }

  /** A prefixed name gives back the position it was made for. */
  lemma PositionInNameReadsBack(index: nat, opts: Options)
    requires Trim(opts.prefixField) != ""
    requires Extension(opts.format).Success?
    ensures PositionInName(Numbered(Trim(opts.prefixField), index + 1, LastSegment(Extension(opts.format).value, '.')), opts) == index
  {
    var p := Trim(opts.prefixField);
    var x := LastSegment(Extension(opts.format).value, '.');
    Regroup(p + Decimal(index + 1), ".", x);
    NumberBetweenFramed(p, index, "." + x);
  }

  /** Every row's position lies in `[lo, hi)`. */
  predicate PositionsWithin(rows: seq<ImageResult>, position: ImageResult -> int, lo: int, hi: int) {
    forall k :: 0 <= k < |rows| ==> lo <= position(rows[k]) < hi
  }

  /** Later rows carry larger positions. */
  predicate PositionsIncreasing(rows: seq<ImageResult>, position: ImageResult -> int) {
    forall i, j :: 0 <= i < j < |rows| ==> position(rows[i]) < position(rows[j])
  }

  /**
   * When every row records the position of the item it came from, the rows
   * of a batch carry strictly increasing positions within the batch.
   */
  lemma {:induction false} RowsInOrder(items: seq<ImageItem>, start: nat, step: Step, position: ImageResult -> int)
    requires forall item, i: nat :: step(item, i).Converted? ==> position(step(item, i).result) == i
    ensures PositionsWithin(Collect(items, start, step), position, start, start + |items|)
    ensures PositionsIncreasing(Collect(items, start, step), position)
    decreases |items|
  {
    if items != [] {
      var rest := Collect(items[1..], start + 1, step);
      RowsInOrder(items[1..], start + 1, step, position);
      assert PositionsWithin(rest, position, start + 1, start + |items|);
      var c := step(items[0], start);
      var r := Collect(items, start, step);
      assert r == Rows(c) + rest;
      if c.Converted? {
        assert position(c.result) == start;
        assert r == [c.result] + rest;
        forall k | 1 <= k < |r|
          ensures r[k] == rest[k - 1]
        {
        }
      } else {
        assert r == rest;
      }
    }
  }

  /** With a prefix, the rows carry strictly increasing positions from the batch: they are in input order. */
  lemma PrefixedRowsInOrder(items: seq<ImageItem>, start: nat, opts: Options, encode: Encoder)
    requires Trim(opts.prefixField) != ""
    ensures var r := Collect(items, start, ItemStep(opts, encode));
            forall k :: 0 <= k < |r| ==> start <= PositionInName(r[k].name, opts) < start + |items|
    ensures var r := Collect(items, start, ItemStep(opts, encode));
            forall i, j :: 0 <= i < j < |r| ==> PositionInName(r[i].name, opts) < PositionInName(r[j].name, opts)
  {
    var step := ItemStep(opts, encode);
    var position := (row: ImageResult) => PositionInName(row.name, opts);
    forall item, i: nat | step(item, i).Converted?
      ensures position(step(item, i).result) == i
    {
      var c := ConvertItem(item, i, opts, encode);
      assert step(item, i) == c;
      ConvertItemOutcome(item, i, opts, encode);
      PositionInNameReadsBack(i, opts);
    }
    RowsInOrder(items, start, step, position);
  }

  /** With a prefix no two rows share a name, so the archive loses no entry. */
  lemma PrefixedRowsDistinct(items: seq<ImageItem>, opts: Options, encode: Encoder)
    requires Trim(opts.prefixField) != ""
    ensures var r := Collect(items, 0, ItemStep(opts, encode));
            forall i, j :: 0 <= i < j < |r| ==> r[i].name != r[j].name
  {
    PrefixedRowsInOrder(items, 0, opts, encode);
  }
}

=== FILE: naming.dfy ===
/**
 * Download names: `getOutputFilename` (script.js:853-864) and the prefix
 * rename the image batch applies on top of it (script.js:265, 271-275).
 */
module Naming {
  import opened Wrappers
  import opened JsStrings

  const WebpMime := "image/webp"
  const JpegMime := "image/jpeg"
  const PngMime := "image/png"
  const PdfMime := "application/pdf"
  const TextMime := "text/plain"
  const DocxMime := "application/vnd.openxmlformats-officedocument.wordprocessingml.document"

  /** The six MIME types with a fixed extension, compared in the source's order. */
  function KnownExtension(mime: string): Option<string> {
    if mime == WebpMime then Some("webp")
    else if mime == JpegMime then Some("jpg")
    else if mime == PngMime then Some("png")
    else if mime == PdfMime then Some("pdf")
    else if mime == TextMime then Some("txt")
    else if mime == DocxMime then Some("docx")
    else None
  }

  /** The table's extensions contain neither a dot nor a slash. */
  lemma KnownExtensionPlain(mime: string)
    requires KnownExtension(mime).Some?
    ensures '.' !in KnownExtension(mime).value && '/' !in KnownExtension(mime).value
  {
  }

  /** `mimeType.split('/')[1]` is `undefined`, so calling `.replace` on it throws a TypeError. */
  datatype NameError = NoSubtype

  /**
   * The extension for a MIME type outside the table: the piece between the
   * first and second `/` with its first `jpeg` replaced by `jpg`; the
   * source's second replacement (`image/` by nothing) can never match there.
   */
  function SubtypeExtension(mime: string): (r: Result<string, NameError>)
    ensures r.Success? <==> '/' in mime
    ensures r.Success? ==> r.value == ReplaceFirst(Split(mime, '/')[1], "jpeg", "jpg")
    ensures r.Success? ==> '/' !in r.value
  {
    var parts := Split(mime, '/');
    if |parts| < 2 then Failure(NoSubtype)
    else
      var subtype := ReplaceFirst(parts[1], "jpeg", "jpg");
      ReplaceFirstKeepsAbsent(parts[1], "jpeg", "jpg", '/');
      ReplaceFirstAbsent(subtype, "image/", "", '/');
      Success(ReplaceFirst(subtype, "image/", ""))
  }

  /** The extension for a MIME type: the table's entry, or else the subtype. */
  function Extension(mime: string): (r: Result<string, NameError>)
    ensures KnownExtension(mime).Some? ==> r == Success(KnownExtension(mime).value)
    ensures KnownExtension(mime).None? ==> (r.Success? <==> '/' in mime)
    ensures KnownExtension(mime).None? && r.Success? ==>
              r.value == ReplaceFirst(Split(mime, '/')[1], "jpeg", "jpg")
    ensures r.Success? ==> '/' !in r.value
  {
    match KnownExtension(mime)
    case Some(e) =>
      KnownExtensionPlain(mime);
      Success(e)
    case None => SubtypeExtension(mime)
  }

  /**
   * `originalName.substring(0, originalName.lastIndexOf('.')) || originalName`:
   * everything before the last dot, or the whole name when there is no dot or
   * the only dot opens the name.
   */
  function BaseName(name: string): (r: string)
    ensures LastIndexOf(name, '.') > 0 ==> r == name[..LastIndexOf(name, '.')]
    ensures LastIndexOf(name, '.') <= 0 ==> r == name
    ensures name != "" ==> r != ""
  {
    var cut := Substring(name, 0, LastIndexOf(name, '.'));
    if cut == "" then name else cut
  }

  /**
   * `getOutputFilename(originalName, mimeType)`: the base name, a dot and the
   * extension of the MIME type; it throws exactly when the MIME type is
   * outside the table and has no `/`.
   */
  function OutputFilename(name: string, mime: string): (r: Result<string, NameError>)
    ensures r.Success? <==> KnownExtension(mime).Some? || '/' in mime
    ensures KnownExtension(mime).Some? ==>
              r == Success(BaseName(name) + "." + KnownExtension(mime).value)
    ensures r.Success? && LastIndexOf(name, '.') > 0 ==>
              r.value == name[..LastIndexOf(name, '.')] + "." + Extension(mime).value
    ensures r.Success? && LastIndexOf(name, '.') <= 0 ==>
              r.value == name + "." + Extension(mime).value
  {
    match Extension(mime)
    case Failure(e) => Failure(e)
    case Success(ext) => Success(BaseName(name) + "." + ext)
  }

  /** Reading the extension back with `split('.').pop()` gives the last dot-piece of the MIME extension. */
  lemma OutputExtensionReadBack(name: string, mime: string)
    requires OutputFilename(name, mime).Success?
    ensures LastSegment(OutputFilename(name, mime).value, '.') == LastSegment(Extension(mime).value, '.')
    ensures '.' !in Extension(mime).value ==>
              LastSegment(OutputFilename(name, mime).value, '.') == Extension(mime).value
  {
    var ext := Extension(mime).value;
    var full := OutputFilename(name, mime).value;
    assert full == BaseName(name) + ['.'] + ext;
    LastSegmentAfterAppend(BaseName(name), '.', ext);
    if '.' !in ext {
      LastSegmentNoSeparator(ext, '.');
    }
  }

  /**
   * Deriving a name from a derived name changes nothing, provided the
   * original name was not empty and the extension has no dot of its own.
   */
  lemma OutputFilenameIdempotent(name: string, mime: string)
    requires name != ""
    requires OutputFilename(name, mime).Success?
    requires '.' !in Extension(mime).value
    ensures OutputFilename(OutputFilename(name, mime).value, mime) == OutputFilename(name, mime)
  {
    var base := BaseName(name);
    var ext := Extension(mime).value;
    var full := OutputFilename(name, mime).value;
    assert full == base + ['.'] + ext;
    LastIndexOfBeforeTail(base, '.', ext);
    assert full[..|base|] == base;
  }

  /** The empty name is the exception: each derivation appends another extension. */
  lemma EmptyNameNotIdempotent()
    ensures OutputFilename("", WebpMime) == Success(".webp")
    ensures OutputFilename(".webp", WebpMime) == Success(".webp.webp")
  {
    assert BaseName("") == "";
    assert "" + "." + "webp" == ".webp";
    assert ".webp"[0] == '.' && '.' !in ".webp"[1..];
    LastIndexOfUnique(".webp", '.', 0);
    assert BaseName(".webp") == ".webp";
    assert ".webp" + "." + "webp" == ".webp.webp";
  }

  /**
   * The name item `index` (0-based) of a batch receives, given the raw prefix
   * field and the derived name: the trimmed prefix, the 1-based position and
   * the derived name's `split('.').pop()`; an all-blank prefix keeps the
   * derived name.
   */
  function RenameForBatch(prefixField: string, index: nat, derived: string): string {
    var prefix := Trim(prefixField);
    if prefix == "" then derived
    else Numbered(prefix, index + 1, LastSegment(derived, '.'))
  }

  /** `${prefix}${n}.${ext}`: a prefixed download name. */
  function Numbered(prefix: string, n: nat, ext: string): string {
    prefix + Decimal(n) + "." + ext
  }

  /** Prefixed names differ whenever their numbers do. */
  lemma NumberedDistinct(prefix: string, m: nat, n: nat, ext: string)
    requires m != n
    ensures Numbered(prefix, m, ext) != Numbered(prefix, n, ext)
  {
    Regroup(prefix + Decimal(m), ".", ext);
    Regroup(prefix + Decimal(n), ".", ext);
    FramedDecimalsDistinct(prefix, m, n, "." + ext);
  }

  /** `getOutputFilename` followed by the prefix rename: the name a converted image is offered under. */
  function BatchName(name: string, mime: string, prefixField: string, index: nat): (r: Result<string, NameError>)
    ensures r.Success? <==> KnownExtension(mime).Some? || '/' in mime
    ensures Trim(prefixField) == "" ==> r == OutputFilename(name, mime)
    ensures Trim(prefixField) != "" && KnownExtension(mime).Some? ==>
              r == Success(Numbered(Trim(prefixField), index + 1, KnownExtension(mime).value))
    ensures Trim(prefixField) != "" && r.Success? ==>
              r.value == Numbered(Trim(prefixField), index + 1, LastSegment(Extension(mime).value, '.'))
  {
    match OutputFilename(name, mime)
    case Failure(e) => Failure(e)
    case Success(derived) =>
      OutputExtensionReadBack(name, mime);
      if KnownExtension(mime).Some? then
        KnownExtensionPlain(mime);
        Success(RenameForBatch(prefixField, index, derived))
      else
        Success(RenameForBatch(prefixField, index, derived))
  }

  /**
   * With a prefix, two positions of one batch never share a download name,
   * whatever the original names were.
   */
  lemma PrefixedNamesDistinct(name1: string, name2: string, mime: string, prefixField: string, i: nat, j: nat)
    requires Trim(prefixField) != ""
    requires BatchName(name1, mime, prefixField, i).Success?
    requires i != j
    ensures BatchName(name1, mime, prefixField, i) != BatchName(name2, mime, prefixField, j)
  {
    NumberedDistinct(Trim(prefixField), i + 1, j + 1, LastSegment(Extension(mime).value, '.'));
  }
}

=== FILE: platform.dfy ===
/**
 * The browser objects the script handles, reduced to what its logic reads:
 * files by name, MIME type and size, encoded outputs by size, and rasters
 * (decoded images and canvases) by their dimensions. Pixel and byte
 * contents are opaque tokens.
 */
module Platform {

  /**
   * A raster dimension: decoded images, and the editor canvases sized after
   * them, are never empty. The output canvas of a conversion is sized
   * separately and can be empty (`Images.Canvas`).
   */
  type Dim = d: int | d >= 1 witness 1

  /** A decoded image or a canvas; `pixels` stands for its contents. */
  datatype Raster = Raster(pixels: nat, width: Dim, height: Dim)

  /** An encoded binary object (`Blob`); `bytes` stands for its contents. */
  datatype Blob = Blob(bytes: nat, size: nat)

  /** A user-selected `File`: its name, its `type` (MIME type), its size and its contents. */
  datatype File = File(name: string, mime: string, size: nat, bytes: nat)
}

=== FILE: strings.dfy ===
/**
 * The JavaScript string built-ins the script leans on, with their exact
 * ECMAScript behaviour on `seq<char>`: `split` with a one-character
 * separator, `lastIndexOf`, `substring` (argument clamping), `startsWith`,
 * `endsWith`, `toLowerCase` (ASCII letters only), `trim`, `replace` with a
 * string pattern, `Number.prototype.toString` for naturals and `parseInt`
 * with no radix argument.
 */
module JsStrings {
  import opened Wrappers

  // ---------------------------------------------------------------------------
  // split / join
  // ---------------------------------------------------------------------------

  /** Number of occurrences of `c` in `s`. */
  function Count(s: string, c: char): (n: nat)
    ensures n == 0 <==> c !in s
    ensures n <= |s|
  {
    if |s| == 0 then 0
    else (if s[0] == c then 1 else 0) + Count(s[1..], c)
  }

  /** The pieces glued back together with `c` between neighbours (`Array.prototype.join`). */
  function Join(pieces: seq<string>, c: char): string
    requires |pieces| >= 1
  {
    if |pieces| == 1 then pieces[0] else pieces[0] + [c] + Join(pieces[1..], c)
  }

  /**
   * `s.split(c)`: the maximal runs between occurrences of `c`, in order.
   * There is always one more piece than there are separators, so the empty
   * string splits into one empty piece.
   */
  function Split(s: string, c: char): (pieces: seq<string>)
    ensures |pieces| == Count(s, c) + 1
    ensures forall i :: 0 <= i < |pieces| ==> c !in pieces[i]
  {
    if |s| == 0 then [""]
    else
      var rest := Split(s[1..], c);
      if s[0] == c then [""] + rest
      else
        var first := [s[0]] + rest[0];
        assert ([first] + rest[1..])[1..] == rest[1..];
        [first] + rest[1..]
  }

  /** `join` undoes `split`: no character is lost or invented. */
  lemma {:induction false} JoinSplit(s: string, c: char)
    ensures Join(Split(s, c), c) == s
    decreases |s|
  {
    if |s| > 0 {
      var rest := Split(s[1..], c);
      JoinSplit(s[1..], c);
      assert s == [s[0]] + s[1..];
      if s[0] == c {
        JoinSeparatorFront(rest, c);
      } else {
        JoinGlueFront(s[0], rest, c);
      }
    }
  }

  /** A leading empty piece joins as a leading separator. */
  lemma JoinSeparatorFront(rest: seq<string>, c: char)
    requires |rest| >= 1
    ensures Join([""] + rest, c) == [c] + Join(rest, c)
  {
    assert ([""] + rest)[1..] == rest;
    assert "" + [c] == [c];
  }

  /** A character glued onto the first piece comes first in the join. */
  lemma JoinGlueFront(x: char, rest: seq<string>, c: char)
    requires |rest| >= 1
    ensures Join([[x] + rest[0]] + rest[1..], c) == [x] + Join(rest, c)
  {
    var pieces := [[x] + rest[0]] + rest[1..];
    assert pieces[0] == [x] + rest[0];
    assert pieces[1..] == rest[1..];
    if |rest| > 1 {
      var tail := [c] + Join(rest[1..], c);
      assert Join(pieces, c) == ([x] + rest[0]) + tail;
      assert Join(rest, c) == rest[0] + tail;
    }
  }

  /** Splitting a string with no separator in front of the rest glues `p` onto the first piece. */
  lemma {:induction false} SplitPrefix(p: string, t: string, c: char)
    requires c !in p
    ensures Split(p + t, c) == [p + Split(t, c)[0]] + Split(t, c)[1..]
    decreases |p|
  {
    var st := Split(t, c);
    if |p| == 0 {
      assert p + t == t;
      assert p + st[0] == st[0];
      assert st == [st[0]] + st[1..];
    } else {
      var q := p[1..] + t;
      assert p + t == [p[0]] + q;
      SplitCons(p[0], q, c);
      SplitPrefix(p[1..], t, c);
      var rest := Split(q, c);
      assert rest[0] == p[1..] + st[0];
      assert rest[1..] == st[1..];
      assert p == [p[0]] + p[1..];
      Regroup([p[0]], p[1..], st[0]);
    }
  }

  /** A leading non-separator joins the first piece. */
  lemma SplitCons(x: char, s: string, c: char)
    requires x != c
    ensures Split([x] + s, c) == [[x] + Split(s, c)[0]] + Split(s, c)[1..]
  {
    assert ([x] + s)[1..] == s;
  }

  /** `split` undoes `join` whenever no piece contains the separator. */
  lemma {:induction false} SplitJoin(pieces: seq<string>, c: char)
    requires |pieces| >= 1
    requires forall i :: 0 <= i < |pieces| ==> c !in pieces[i]
    ensures Split(Join(pieces, c), c) == pieces
    decreases |pieces|
  {
    if |pieces| == 1 {
      SplitPrefix(pieces[0], "", c);
      assert pieces[0] + "" == pieces[0];
      assert pieces[0] + Split("", c)[0] == pieces[0];
    } else {
      var tail := [c] + Join(pieces[1..], c);
      assert Join(pieces, c) == pieces[0] + tail;
      SplitPrefix(pieces[0], tail, c);
      SplitJoin(pieces[1..], c);
      assert tail[1..] == Join(pieces[1..], c);
      assert Split(tail, c) == [""] + pieces[1..];
      assert pieces[0] + "" == pieces[0];
      assert pieces == [pieces[0]] + pieces[1..];
    }
  }

  // ---------------------------------------------------------------------------
  // lastIndexOf / split(c).pop() / substring
  // ---------------------------------------------------------------------------

  /** `s.lastIndexOf(c)`: the index of the last `c`, or -1 when there is none. */
  function LastIndexOf(s: string, c: char): (r: int)
    ensures -1 <= r < |s|
    ensures r == -1 <==> c !in s
    ensures r >= 0 ==> s[r] == c && c !in s[r + 1..]
  {
    if |s| == 0 then -1
    else if s[|s| - 1] == c then
      assert s[|s|..] == [];
      |s| - 1
    else
      var front := s[..|s| - 1];
      var k := LastIndexOf(front, c);
      assert s == front + [s[|s| - 1]];
      assert c in s <==> c in front;
      if k < 0 then k
      else
        assert s[k + 1..] == front[k + 1..] + [s[|s| - 1]];
        k
  }

  /** The last-`c` index is pinned down by the three facts that characterise it. */
  lemma LastIndexOfUnique(s: string, c: char, k: nat)
    requires k < |s| && s[k] == c && c !in s[k + 1..]
    ensures LastIndexOf(s, c) == k
  {
    var r := LastIndexOf(s, c);
    forall j | k < j < |s|
      ensures s[j] != c
    {
      assert s[j] == s[k + 1..][j - k - 1];
    }
    forall j | r < j < |s|
      ensures s[j] != c
    {
      if r >= 0 {
        assert s[j] == s[r + 1..][j - r - 1];
      }
    }
  }

  /** `s.split(c).pop()`: the last piece. */
  function LastSegment(s: string, c: char): string {
    var pieces := Split(s, c);
    pieces[|pieces| - 1]
  }

  /** Without a separator the whole string is the last piece. */
  lemma LastSegmentNoSeparator(s: string, c: char)
    requires c !in s
    ensures LastSegment(s, c) == s
  {
    JoinSplit(s, c);
  }

  /** A leading character does not change the last piece once a separator follows it. */
  lemma LastSegmentCons(s: string, c: char)
    requires |s| > 0 && c in s[1..]
    ensures LastSegment(s, c) == LastSegment(s[1..], c)
  {
    var rest := Split(s[1..], c);
    assert |rest| > 1;
    if s[0] != c {
      assert Split(s, c) == [[s[0]] + rest[0]] + rest[1..];
    }
  }

  /** The last piece is exactly what follows the last separator (all of `s` when there is none). */
  lemma {:induction false} LastSegmentAfterLastIndex(s: string, c: char)
    ensures LastSegment(s, c) == s[LastIndexOf(s, c) + 1..]
    decreases |s|
  {
    if c !in s {
      LastSegmentNoSeparator(s, c);
    } else {
      var t := s[1..];
      if c in t {
        LastSegmentAfterLastIndex(t, c);
        LastSegmentCons(s, c);
        var k := LastIndexOf(t, c);
        assert s[k + 1] == c;
        assert s[k + 2..] == t[k + 1..];
        LastIndexOfUnique(s, c, k + 1);
      } else {
        assert s[0] == c by {
          assert s == [s[0]] + t;
        }
        LastIndexOfUnique(s, c, 0);
        LastSegmentNoSeparator(t, c);
        assert Split(s, c) == [""] + Split(t, c);
      }
    }
  }

  /** `s + [c] + e` with `e` free of `c` has its last `c` right after `s`. */
  lemma LastIndexOfBeforeTail(s: string, c: char, e: string)
    requires c !in e
    ensures LastIndexOf(s + [c] + e, c) == |s|
    ensures LastSegment(s + [c] + e, c) == e
  {
    var w := s + [c] + e;
    assert w[|s| + 1..] == e;
    LastIndexOfUnique(w, c, |s|);
    LastSegmentAfterLastIndex(w, c);
  }

  /** Appending `.e` leaves `split('.').pop()` looking only at `e`. */
  lemma LastSegmentAfterAppend(a: string, c: char, e: string)
    ensures LastSegment(a + [c] + e, c) == LastSegment(e, c)
  {
    if c in e {
      var k := LastIndexOf(e, c);
      var before := a + [c] + e[..k];
      assert a + [c] + e == before + [c] + e[k + 1..];
      LastIndexOfBeforeTail(before, c, e[k + 1..]);
      LastSegmentAfterLastIndex(e, c);
    } else {
      LastIndexOfBeforeTail(a, c, e);
      LastSegmentNoSeparator(e, c);
    }
  }

  function Clamp(x: int, len: nat): (r: nat)
    ensures r <= len
  {
    if x < 0 then 0 else if x > len then len else x
  }

  /** `s.substring(a, b)`: both ends clamped into range, then swapped if out of order. */
  function Substring(s: string, a: int, b: int): (r: string)
    ensures |r| <= |s|
    ensures 0 <= a <= b <= |s| ==> r == s[a..b]
    ensures 0 <= b <= a <= |s| ==> r == s[b..a]
    ensures a <= 0 && b <= 0 ==> r == ""
    ensures a >= |s| && b >= |s| ==> r == ""
  {
    var i := Clamp(a, |s|);
    var j := Clamp(b, |s|);
    if i <= j then s[i..j] else s[j..i]
  }

  // ---------------------------------------------------------------------------
  // startsWith / endsWith / toLowerCase
  // ---------------------------------------------------------------------------

  predicate StartsWith(s: string, prefix: string) {
    |prefix| <= |s| && s[..|prefix|] == prefix
  }

  predicate EndsWith(s: string, suffix: string) {
    |suffix| <= |s| && s[|s| - |suffix|..] == suffix
  }

  function LowerChar(ch: char): char {
    if 'A' <= ch <= 'Z' then (ch as int + 32) as char else ch
  }

  /** `toLowerCase`, restricted to the ASCII letters. */
  function Lower(s: string): (r: string)
    ensures |r| == |s|
    ensures forall i :: 0 <= i < |s| ==> r[i] == LowerChar(s[i])
  {
    seq(|s|, i requires 0 <= i < |s| => LowerChar(s[i]))
  }

  /** Lowering keeps every position it does not turn into a letter; in particular no other character becomes `c` when `c` is not a letter. */
  lemma LowerKeepsNonLetter(s: string, c: char)
    requires !('A' <= c <= 'Z') && !('a' <= c <= 'z')
    ensures c in Lower(s) <==> c in s
  {
    if c in s {
      var i :| 0 <= i < |s| && s[i] == c;
      assert Lower(s)[i] == c;
    }
    if c in Lower(s) {
      var i :| 0 <= i < |Lower(s)| && Lower(s)[i] == c;
      assert s[i] == c;
    }
  }

  /**
   * When the lowered string ends in `c` followed by a `c`-free `e`, the last
   * piece of the original lowers to exactly `e`: lowering commutes with
   * `split(c).pop()` for a non-letter separator.
   */
  lemma LowerLastSegment(s: string, c: char, e: string)
    requires !('A' <= c <= 'Z') && !('a' <= c <= 'z')
    requires c !in e
    requires EndsWith(Lower(s), [c] + e)
    ensures Lower(LastSegment(s, c)) == e
  {
    var k := |s| - |e| - 1;
    assert Lower(s)[k] == c;
    assert s[k] == c;
    LowerKeepsNonLetter(s[k + 1..], c);
    assert Lower(s[k + 1..]) == Lower(s)[k + 1..];
    assert Lower(s)[k + 1..] == e;
    LastIndexOfUnique(s, c, k);
    LastSegmentAfterLastIndex(s, c);
  }

  // ---------------------------------------------------------------------------
  // trim
  // ---------------------------------------------------------------------------

  /** The ECMAScript WhiteSpace and LineTerminator code points (what `trim` and `parseInt` skip). */
  predicate IsSpace(ch: char) {
    || ch == '\t' || ch == '\n' || ch == '\U{000B}' || ch == '\U{000C}' || ch == '\r'
    || ch == ' ' || ch == '\U{00A0}' || ch == '\U{1680}'
    || ('\U{2000}' <= ch <= '\U{200A}')
    || ch == '\U{2028}' || ch == '\U{2029}' || ch == '\U{202F}' || ch == '\U{205F}'
    || ch == '\U{3000}' || ch == '\U{FEFF}'
  }

  /** Length of the longest all-whitespace prefix. */
  function LeadingSpace(s: string): (n: nat)
    ensures n <= |s|
    ensures forall k :: 0 <= k < n ==> IsSpace(s[k])
    ensures n < |s| ==> !IsSpace(s[n])
  {
    if |s| == 0 || !IsSpace(s[0]) then 0 else 1 + LeadingSpace(s[1..])
  }

  /** Length of the longest all-whitespace suffix. */
  function TrailingSpace(s: string): (n: nat)
    ensures n <= |s|
    ensures forall k :: |s| - n <= k < |s| ==> IsSpace(s[k])
    ensures n < |s| ==> !IsSpace(s[|s| - n - 1])
  {
    if |s| == 0 || !IsSpace(s[|s| - 1]) then 0 else 1 + TrailingSpace(s[..|s| - 1])
  }

  /** `s.trimStart()`, as the first step of `parseInt` uses it. */
  function TrimStart(s: string): string {
    s[LeadingSpace(s)..]
  }

  /**
   * `s.trim()`: whitespace removed from both ends. The result is the piece
   * of `s` that follows the leading whitespace run and is followed only by
   * whitespace.
   */
  function Trim(s: string): (r: string)
    ensures r == "" <==> forall k :: 0 <= k < |s| ==> IsSpace(s[k])
    ensures r != "" ==> !IsSpace(r[0]) && !IsSpace(r[|r| - 1])
    ensures LeadingSpace(s) + |r| <= |s| && s[LeadingSpace(s)..LeadingSpace(s) + |r|] == r
    ensures forall k :: LeadingSpace(s) + |r| <= k < |s| ==> IsSpace(s[k])
  {
    var lead := LeadingSpace(s);
    var t := TrimStart(s);
    var n := TrailingSpace(t);
    assert |t| > 0 ==> t[0] == s[lead] && !IsSpace(t[0]);
    assert |t| > 0 ==> n < |t|;
    t[..|t| - n]
  }

  /** All characters of `s` are whitespace. */
  predicate Blank(s: string) {
    forall k :: 0 <= k < |s| ==> IsSpace(s[k])
  }

  /**
   * `trim` recovers any text that neither starts nor ends with whitespace
   * from between two whitespace runs: the result is determined by the input,
   * not just its emptiness and its ends.
   */
  lemma TrimFramed(pre: string, core: string, post: string)
    requires Blank(pre) && Blank(post)
    requires core != "" ==> !IsSpace(core[0]) && !IsSpace(core[|core| - 1])
    ensures Trim(pre + core + post) == core
  {
    var s := pre + core + post;
    assert forall k :: 0 <= k < |pre| ==> s[k] == pre[k];
    assert forall k :: |pre| + |core| <= k < |s| ==> s[k] == post[k - |pre| - |core|];
    if core == "" {
      assert Blank(s);
    } else {
      assert s[|pre|] == core[0];
      LeadingSpaceIs(s, |pre|);
      assert s[|pre| + |core| - 1] == core[|core| - 1];
      TrimLength(s, |core|);
      assert s[|pre|..|pre| + |core|] == core;
    }
  }

  /** The leading white-space run ends at the first non-space character. */
  lemma LeadingSpaceIs(s: string, a: nat)
    requires a < |s| && !IsSpace(s[a])
    requires forall k :: 0 <= k < a ==> IsSpace(s[k])
    ensures LeadingSpace(s) == a
  {
  }

  /**
   * A trim that starts at the first non-space character ends at the last one:
   * when the piece of length `n` after the leading run ends in a non-space
   * and only white space follows it, the trimmed text has length `n`.
   */
  lemma TrimLength(s: string, n: nat)
    requires n > 0 && LeadingSpace(s) + n <= |s|
    requires !IsSpace(s[LeadingSpace(s) + n - 1])
    requires forall k :: LeadingSpace(s) + n <= k < |s| ==> IsSpace(s[k])
    ensures |Trim(s)| == n
  {
    var a := LeadingSpace(s);
    var r := Trim(s);
    assert r != "";
    assert !IsSpace(s[a + |r| - 1]) by {
      assert s[a + |r| - 1] == r[|r| - 1];
    }
  }

  // ---------------------------------------------------------------------------
  // replace (string pattern)
  // ---------------------------------------------------------------------------

  /** `s.replace(pattern, replacement)` with a string pattern: only the first occurrence is replaced. */
  function ReplaceFirst(s: string, pattern: string, replacement: string): (r: string)
    ensures r == s || |r| == |s| - |pattern| + |replacement|
    decreases |s|
  {
    if |pattern| <= |s| && s[..|pattern|] == pattern then replacement + s[|pattern|..]
    else if |s| == 0 then s
    else [s[0]] + ReplaceFirst(s[1..], pattern, replacement)
  }

  /** `pattern` occurs in `s` starting at position `i`. */
  predicate OccursAt(s: string, pattern: string, i: int) {
    0 <= i && i + |pattern| <= |s| && s[i..i + |pattern|] == pattern
  }

  /** An occurrence one position further into `s` is an occurrence in its tail. */
  lemma OccursShift(s: string, pattern: string, i: int)
    requires |s| > 0 && 0 <= i
    ensures OccursAt(s, pattern, i + 1) <==> OccursAt(s[1..], pattern, i)
  {
    if i + 1 + |pattern| <= |s| {
      assert s[1..][i..i + |pattern|] == s[i + 1..i + 1 + |pattern|];
    }
  }

  /**
   * The replacement happens at the first occurrence: the text before it and
   * after it is kept, and only the matched part is replaced.
   */
  lemma {:induction false} ReplaceFirstAt(s: string, pattern: string, replacement: string, i: nat)
    requires OccursAt(s, pattern, i)
    requires forall j :: 0 <= j < i ==> !OccursAt(s, pattern, j)
    ensures ReplaceFirst(s, pattern, replacement) == s[..i] + replacement + s[i + |pattern|..]
    decreases i
  {
    if i > 0 {
      assert !OccursAt(s, pattern, 0);
      forall j | 0 <= j < i - 1
        ensures !OccursAt(s[1..], pattern, j)
      {
        OccursShift(s, pattern, j);
      }
      OccursShift(s, pattern, i - 1);
      var tail := s[1..];
      ReplaceFirstAt(tail, pattern, replacement, i - 1);
      var after := s[i + |pattern|..];
      assert tail[..i - 1] == s[1..i];
      assert tail[i - 1 + |pattern|..] == after;
      assert ReplaceFirst(s, pattern, replacement) == [s[0]] + ReplaceFirst(tail, pattern, replacement);
      Regroup([s[0]], s[1..i] + replacement, after);
      Regroup([s[0]], s[1..i], replacement);
      assert [s[0]] + s[1..i] == s[..i];
    }
  }

  /** Without an occurrence the subject comes back unchanged. */
  lemma {:induction false} ReplaceFirstNone(s: string, pattern: string, replacement: string)
    requires forall j :: 0 <= j ==> !OccursAt(s, pattern, j)
    ensures ReplaceFirst(s, pattern, replacement) == s
    decreases |s|
  {
    assert !OccursAt(s, pattern, 0);
    if |s| > 0 {
      forall j | 0 <= j
        ensures !OccursAt(s[1..], pattern, j)
      {
        OccursShift(s, pattern, j);
      }
      ReplaceFirstNone(s[1..], pattern, replacement);
      assert [s[0]] + s[1..] == s;
    }
  }

  /** A pattern holding a character the subject lacks never matches. */
  lemma {:induction false} ReplaceFirstAbsent(s: string, pattern: string, replacement: string, c: char)
    requires c in pattern && c !in s
    ensures ReplaceFirst(s, pattern, replacement) == s
    decreases |s|
  {
    var i :| 0 <= i < |pattern| && pattern[i] == c;
    assert |pattern| <= |s| ==> s[..|pattern|][i] != c;
    if |s| > 0 {
      ReplaceFirstAbsent(s[1..], pattern, replacement, c);
      assert [s[0]] + s[1..] == s;
    }
  }

  /** Replacement introduces only characters of the subject and the replacement. */
  lemma {:induction false} ReplaceFirstKeepsAbsent(s: string, pattern: string, replacement: string, c: char)
    requires c !in s && c !in replacement
    ensures c !in ReplaceFirst(s, pattern, replacement)
    decreases |s|
  {
    if |pattern| <= |s| && s[..|pattern|] == pattern {
      assert c !in s[|pattern|..];
    } else if |s| > 0 {
      ReplaceFirstKeepsAbsent(s[1..], pattern, replacement, c);
    }
  }

  // ---------------------------------------------------------------------------
  // Number -> decimal string, and parseInt
  // ---------------------------------------------------------------------------

  function DigitChar(d: nat): char
    requires d < 10
  {
    ('0' as int + d) as char
  }

  /** The value of a digit in any radix up to 36; 36 for a character that is no digit at all. */
  function DigitValue(ch: char): (v: nat)
    ensures v <= 36
  {
    if '0' <= ch <= '9' then ch as int - '0' as int
    else if 'a' <= ch <= 'z' then ch as int - 'a' as int + 10
    else if 'A' <= ch <= 'Z' then ch as int - 'A' as int + 10
    else 36
  }

  predicate IsDecimalDigit(ch: char) {
    '0' <= ch <= '9'
  }

  /** The decimal numeral of `n` without leading zeros: what `${n}` produces for a natural number. */
  function Decimal(n: nat): (r: string)
    ensures |r| >= 1
    ensures forall k :: 0 <= k < |r| ==> IsDecimalDigit(r[k])
    ensures |r| > 1 ==> r[0] != '0'
    decreases n
  {
    if n < 10 then [DigitChar(n)] else Decimal(n / 10) + [DigitChar(n % 10)]
  }

  /** The number a string of digits denotes in `radix`, most significant first. */
  function DigitsValue(digits: string, radix: nat): nat {
    if |digits| == 0 then 0
    else DigitsValue(digits[..|digits| - 1], radix) * radix + DigitValue(digits[|digits| - 1])
  }

  /** Reading a decimal numeral back gives the number it was printed from. */
  lemma {:induction false} DecimalValue(n: nat)
    ensures DigitsValue(Decimal(n), 10) == n
    decreases n
  {
    if n >= 10 {
      DecimalValue(n / 10);
      var d := Decimal(n);
      assert d[..|d| - 1] == Decimal(n / 10);
    }
  }

  /** Different naturals print differently. */
  lemma DecimalInjective(m: nat, n: nat)
    ensures Decimal(m) == Decimal(n) <==> m == n
  {
    DecimalValue(m);
    DecimalValue(n);
  }

  /** Framing two different numbers between the same prefix and suffix gives different strings. */
  lemma FramedDecimalsDistinct(p: string, m: nat, n: nat, e: string)
    requires m != n
    ensures p + Decimal(m) + e != p + Decimal(n) + e
  {
    DecimalInjective(m, n);
    var a := p + Decimal(m) + e;
    var b := p + Decimal(n) + e;
    if |Decimal(m)| == |Decimal(n)| {
      assert a[|p|..|p| + |Decimal(m)|] == Decimal(m);
      assert b[|p|..|p| + |Decimal(n)|] == Decimal(n);
    }
  }

  /** Concatenation regroups freely. */
  lemma Regroup<T>(a: seq<T>, b: seq<T>, c: seq<T>)
    ensures a + b + c == a + (b + c)
  {
  }

  /** Length of the longest prefix whose characters are digits of `radix`. */
  function DigitRun(s: string, radix: nat): (n: nat)
    ensures n <= |s|
    ensures forall k :: 0 <= k < n ==> DigitValue(s[k]) < radix
    ensures n < |s| ==> DigitValue(s[n]) >= radix
  {
    if |s| == 0 || DigitValue(s[0]) >= radix then 0 else 1 + DigitRun(s[1..], radix)
  }

  /** A magnitude with a sign applied. */
  function Signed(negative: bool, magnitude: nat): int {
    if negative then -(magnitude as int) else magnitude
  }

  /**
   * The unsigned part of `parseInt`: a `0x`/`0X` prefix selects radix 16,
   * then the longest run of digits is read; no digits gives NaN.
   */
  function ParseMagnitude(u: string): Option<nat> {
    var hex := |u| >= 2 && u[0] == '0' && (u[1] == 'x' || u[1] == 'X');
    var radix := if hex then 16 else 10;
    var v := if hex then u[2..] else u;
    var n := DigitRun(v, radix);
    if n == 0 then None else Some(DigitsValue(v[..n], radix))
  }

  /** `parseInt` after the leading white space: one optional sign, then the magnitude. */
  function ParseSigned(t: string): Option<int> {
    var negative := |t| > 0 && t[0] == '-';
    var u := if |t| > 0 && (t[0] == '-' || t[0] == '+') then t[1..] else t;
    match ParseMagnitude(u)
    case None => None
    case Some(m) => Some(Signed(negative, m))
  }

  /**
   * `parseInt(s)` with no radix argument, `None` standing for NaN: leading
   * whitespace is skipped, one sign is read, a `0x`/`0X` prefix selects radix
   * 16, then the longest run of digits is read; no digits gives NaN. The
   * value is exact (no rounding to a double).
   */
  function ParseInt(s: string): (r: Option<int>)
    ensures Blank(s) ==> r.None?
    ensures r.Some? && r.value < 0 ==> |TrimStart(s)| > 0 && TrimStart(s)[0] == '-'
  {
    ParseSigned(TrimStart(s))
  }

  /** `trimStart` drops a white-space run in front of text that starts with a non-space. */
  lemma TrimStartAfterBlank(ws: string, x: string)
    requires Blank(ws) && |x| > 0 && !IsSpace(x[0])
    ensures TrimStart(ws + x) == x
  {
    var s := ws + x;
    assert forall k :: 0 <= k < |ws| ==> s[k] == ws[k];
    assert s[|ws|] == x[0];
    LeadingSpaceIs(s, |ws|);
    assert s[|ws|..] == x;
  }

  /** The digit run stops exactly where the digits of `radix` end. */
  lemma {:induction false} DigitRunPrefix(d: string, rest: string, radix: nat)
    requires forall k :: 0 <= k < |d| ==> DigitValue(d[k]) < radix
    requires |rest| == 0 || DigitValue(rest[0]) >= radix
    ensures DigitRun(d + rest, radix) == |d|
    decreases |d|
  {
    if |d| == 0 {
      assert d + rest == rest;
    } else {
      assert (d + rest)[0] == d[0];
      assert (d + rest)[1..] == d[1..] + rest;
      DigitRunPrefix(d[1..], rest, radix);
    }
  }

  /** A sign, or none, in front of a magnitude that starts with neither sign. */
  lemma SignedPrefix(sign: string, u: string)
    requires sign in {"", "+", "-"}
    requires |u| > 0 && (sign == "" ==> u[0] != '-' && u[0] != '+')
    ensures ParseSigned(sign + u) ==
              match ParseMagnitude(u)
              case None => None
              case Some(m) => Some(Signed(sign == "-", m))
  {
    var t := sign + u;
    assert t[0] == (if sign == "" then u[0] else sign[0]);
    assert sign != "" ==> t[1..] == u;
    assert sign == "" ==> t == u;
  }

  /** A decimal run, not a lone `0` before an `x`, reads as its value. */
  lemma MagnitudeDecimal(d: string, rest: string)
    requires |d| > 0 && forall k :: 0 <= k < |d| ==> IsDecimalDigit(d[k])
    requires |rest| == 0 || !IsDecimalDigit(rest[0])
    requires !(d == "0" && |rest| > 0 && (rest[0] == 'x' || rest[0] == 'X'))
    ensures ParseMagnitude(d + rest) == Some(DigitsValue(d, 10))
  {
    var u := d + rest;
    assert !(|u| >= 2 && u[0] == '0' && (u[1] == 'x' || u[1] == 'X')) by {
      if |u| >= 2 && |d| >= 2 {
        assert u[1] == d[1];
      } else if |u| >= 2 {
        assert u[1] == rest[0];
      }
    }
    assert DigitRun(u, 10) == |d| by {
      DigitRunPrefix(d, rest, 10);
    }
    assert u[..|d|] == d;
  }

  /** `0x` or `0X` and a hexadecimal run read as its value; without digits, NaN. */
  lemma MagnitudeHex(x: char, h: string, rest: string)
    requires x == 'x' || x == 'X'
    requires forall k :: 0 <= k < |h| ==> DigitValue(h[k]) < 16
    requires |rest| == 0 || DigitValue(rest[0]) >= 16
    ensures ParseMagnitude(['0', x] + (h + rest)) == if |h| == 0 then None else Some(DigitsValue(h, 16))
  {
    var v := h + rest;
    var u := ['0', x] + v;
    assert u[0] == '0' && u[1] == x;
    assert u[2..] == v;
    DigitRunPrefix(h, rest, 16);
    assert v[..|h|] == h;
  }

  /** `parseInt` skips a white-space run in front of a sign or a non-space. */
  lemma ParseIntAfterBlank(ws: string, sign: string, u: string)
    requires Blank(ws) && sign in {"", "+", "-"}
    requires |u| > 0 && (sign == "" ==> !IsSpace(u[0]))
    ensures ParseInt(ws + (sign + u)) == ParseSigned(sign + u)
  {
    var t := sign + u;
    assert t[0] == (if sign == "" then u[0] else sign[0]);
    TrimStartAfterBlank(ws, t);
  }

  /**
   * `parseInt` on decimal input: after leading white space and an optional
   * sign it reads the longest run of decimal digits, leading zeros included,
   * and ignores whatever follows (a fraction, an exponent, other text). A
   * lone `0` followed by `x` or `X` is the hexadecimal case instead.
   */
  lemma ParseIntDecimal(ws: string, sign: string, d: string, rest: string)
    requires Blank(ws) && sign in {"", "+", "-"}
    requires |d| > 0 && forall k :: 0 <= k < |d| ==> IsDecimalDigit(d[k])
    requires |rest| == 0 || !IsDecimalDigit(rest[0])
    requires !(d == "0" && |rest| > 0 && (rest[0] == 'x' || rest[0] == 'X'))
    ensures ParseInt(ws + (sign + (d + rest))) == Some(Signed(sign == "-", DigitsValue(d, 10)))
  {
    var u := d + rest;
    assert u[0] == d[0];
    ParseIntAfterBlank(ws, sign, u);
    SignedDecimal(sign, d, rest);
  }

  /** The signed part of the decimal case. */
  lemma SignedDecimal(sign: string, d: string, rest: string)
    requires sign in {"", "+", "-"}
    requires |d| > 0 && forall k :: 0 <= k < |d| ==> IsDecimalDigit(d[k])
    requires |rest| == 0 || !IsDecimalDigit(rest[0])
    requires !(d == "0" && |rest| > 0 && (rest[0] == 'x' || rest[0] == 'X'))
    ensures ParseSigned(sign + (d + rest)) == Some(Signed(sign == "-", DigitsValue(d, 10)))
  {
    var u := d + rest;
    assert u[0] == d[0];
    SignedPrefix(sign, u);
    MagnitudeDecimal(d, rest);
  }

  /**
   * `parseInt` on hexadecimal input: after white space, a sign and `0x` or
   * `0X` it reads the longest run of hexadecimal digits in either case; `0x`
   * with no such digit is NaN.
   */
  lemma ParseIntHex(ws: string, sign: string, x: char, h: string, rest: string)
    requires Blank(ws) && sign in {"", "+", "-"} && (x == 'x' || x == 'X')
    requires forall k :: 0 <= k < |h| ==> DigitValue(h[k]) < 16
    requires |rest| == 0 || DigitValue(rest[0]) >= 16
    ensures ParseInt(ws + (sign + (['0', x] + (h + rest)))) ==
              if |h| == 0 then None else Some(Signed(sign == "-", DigitsValue(h, 16)))
  {
    var u := ['0', x] + (h + rest);
    assert u[0] == '0';
    ParseIntAfterBlank(ws, sign, u);
    SignedHex(sign, x, h, rest);
  }

  /** The signed part of the hexadecimal case. */
  lemma SignedHex(sign: string, x: char, h: string, rest: string)
    requires sign in {"", "+", "-"} && (x == 'x' || x == 'X')
    requires forall k :: 0 <= k < |h| ==> DigitValue(h[k]) < 16
    requires |rest| == 0 || DigitValue(rest[0]) >= 16
    ensures ParseSigned(sign + (['0', x] + (h + rest))) ==
              if |h| == 0 then None else Some(Signed(sign == "-", DigitsValue(h, 16)))
  {
    var u := ['0', x] + (h + rest);
    assert u[0] == '0';
    SignedPrefix(sign, u);
    MagnitudeHex(x, h, rest);
  }

  /**
   * Without a digit after the white space and the sign, `parseInt` is NaN;
   * after a sign nothing more is skipped, so `- 5` and `--5` are NaN too.
   */
  lemma ParseIntNoDigits(ws: string, sign: string, rest: string)
    requires Blank(ws) && sign in {"", "+", "-"}
    requires |rest| > 0 ==> !IsDecimalDigit(rest[0])
    requires |rest| > 0 && sign == "" ==> !IsSpace(rest[0]) && rest[0] != '+' && rest[0] != '-'
    ensures ParseInt(ws + (sign + rest)) == None
  {
    var t := sign + rest;
    if |t| == 0 {
      assert ws + t == ws;
      ParseBlank(ws);
    } else {
      if |rest| > 0 {
        ParseIntAfterBlank(ws, sign, rest);
        SignedPrefix(sign, rest);
        NoMagnitude(rest);
      } else {
        assert t == sign && t[1..] == "";
        ParseIntAfterBlank(ws, "", sign);
        assert "" + sign == sign;
      }
    }
  }

  /** A zero-padded field reads as its value, through the decimal grammar. */
  lemma ParseIntPadded()
    ensures ParseInt("0500") == Some(500)
  {
    assert DigitsValue("0500", 10) == 500 by {
      assert "0500"[..3] == "050" && "050"[..2] == "05" && "05"[..1] == "0" && "0"[..0] == "";
    }
    ParseIntDecimal("", "", "0500", "");
    assert "" + ("" + ("0500" + "")) == "0500";
  }

  /** Text that starts with no digit has no magnitude. */
  lemma NoMagnitude(u: string)
    requires |u| > 0 && !IsDecimalDigit(u[0])
    ensures ParseMagnitude(u) == None
  {
    assert DigitRun(u, 10) == 0;
  }

  /** A blank string (the empty input field) parses to NaN. */
  lemma ParseBlank(s: string)
    requires forall k :: 0 <= k < |s| ==> IsSpace(s[k])
    ensures ParseInt(s) == None
  {
    assert LeadingSpace(s) == |s|;
  }

  /** `parseInt` reads back every decimal numeral `${n}` prints. */
  lemma ParseDecimal(n: nat)
    ensures ParseInt(Decimal(n)) == Some(n)
  {
    var d := Decimal(n);
    assert !IsSpace(d[0]);
    assert TrimStart(d) == d;
    assert forall k :: 0 <= k < |d| ==> DigitValue(d[k]) < 10;
    assert DigitRun(d, 10) == |d|;
    assert d[..|d|] == d;
    DecimalValue(n);
  }
}

=== FILE: wrappers.dfy ===
/** Failure-carrying datatypes shared by the other modules. */
module Wrappers {

  /** A value that may be absent: JavaScript's `null`/`undefined`. */
  datatype Option<+T> = None | Some(value: T) {

    /** The wrapped value, or `default` when absent. */
    function GetOr(default: T): T {
      match this
      case Some(v) => v
      case None => default
    }
  }

  /** Either a value or the error a JavaScript expression would have thrown. */
  datatype Result<+R, +E> = Success(value: R) | Failure(error: E)
}
